=== FILE: README.md ===
# yaoc: a verified model of the chat controller

`yaoc` (openai-cli) is a command-line chat client for OpenAI-compatible
servers. This project models its core in Dafny:

- the tool registry `ToolManager`, which turns category flags into an
  ordered list of tool specifications and a name-to-tool dispatch table;
- `parse_image`, the `text @image:path` attachment syntax, up to the
  `data:` URL of RFC 2397 whose payload is base64 (section 4 of RFC 4648);
- the splitting half of `print_response`, which separates a reasoning part
  from the answer;
- the request body of `call_llm` and the model choice of `get_model_name`;
- the conversation loop of `main`. It appends the user message and posts the
  log. While tools are offered and the assistant asks for tool calls, it
  answers every call with a tool message and posts the log again.

Modules:

| file | module | what it holds |
|---|---|---|
| `wrappers.dfy` | `Wrappers` | `Option` and `Result` |
| `text.dfy` | `Text` | Python's `str.strip()`, `in`, `find`, `startswith`, `endswith`, `split(sep)` and `split(sep, 1)` |
| `tools.dfy` | `Tools` | tool categories, the six tool providers as constant data, the registry as a specification function, and the class `ToolManager` |
| `messages.dfy` | `Messages` | the message log and the rule that ties tool messages to the calls that asked for them |
| `image.dfy` | `ImageTag` | `parse_image` and a reader for the data URL it produces |
| `presenter.dfy` | `Presenter` | the reasoning/answer split |
| `client.dfy` | `Client` | the request body, the model choice and the command-line tool flags |
| `chat.dfy` | `Chat` | the turn as specification functions, and the class `Session` whose methods run the loop in place |

Two kinds of thing are parameters rather than code:

- The remote model is a scripted sequence of replies, one consumed per request.
- The prompts are a sequence of lines; their end is the `EOFError` that ends the loop.

Library and I/O routines are function-valued parameters:

- `json.loads` on tool arguments is `parseArgs`.
- A tool's `run` is `run`.
- `mimetypes.guess_type`, the image download, `os.path.exists`, the file read and the base64 encoder are the fields of `ImageEnv`.

The log invariant. A log is *settled* when every tool message answers, by
id and name and in order, a call of the assistant message before it, and no
call the client would run is left waiting. The model proves three things about it:

- Every request the session posts carries a settled log.
- The log stays linked during a turn.
- A turn that shows an answer leaves the log settled.

## Model

| member | source | states |
|---|---|---|
| Tools.ParseToolType | src/yaoc/tools.py:29-32 | `ToolType(s)` yields the member whose value is `s`, and every member is found by its value |
| Tools.TypeValueRoundTrip | src/yaoc/tools.py:29-32 | every category is found again from its value, and no two categories share a value |
| Tools.EnabledCategories | src/yaoc/tools.py:53 | a category is enabled exactly when its flag is present and true; a true flag naming no category is an error |
| Tools.Discovered | src/yaoc/tools.py:130-133 | six providers; each instance is of its provider's class; the search tool fails to construct exactly when the API key is unset or empty, and no other provider fails |
| Tools.Contribution | src/yaoc/tools.py:57-63 | a provider contributes at most one tool: its instance when the constructor succeeds and its category is enabled, and nothing otherwise |
| Tools.Registered | src/yaoc/tools.py:56-63 | at most one tool per provider, and every registered tool's category is enabled |
| Tools.RegisteredFrom | src/yaoc/tools.py:58-63 | every registered tool is the instance some provider's constructor built |
| Tools.SpecsOf | src/yaoc/tools.py:63 | the specification list has one entry per registered tool, in order |
| Tools.TableKeys | src/yaoc/tools.py:61-62 | the table's keys are exactly the registered names, each mapping to a registered tool of that name |
| Tools.TableLastWins | src/yaoc/tools.py:62 | under each name the table holds the last registered tool of that name |
| Tools.TableSize | src/yaoc/tools.py:62-63 | with distinct names the table has as many entries as the specification list |
| Tools.DuplicateNameShadows | src/yaoc/tools.py:62-63 | two tools with one name: the list keeps both, the table only the later one |
| Tools.RegisteredAppend | src/yaoc/tools.py:56-65 | the registry of a concatenation of providers is the concatenation of the registries |
| Tools.SkippedProvider | src/yaoc/tools.py:57-65 | a provider whose constructor raises, or whose category is disabled, changes nothing, and later providers are still processed |
| Tools.RegisteredDistinct | src/yaoc/tools.py:61-63 | providers with pairwise distinct names give a registry with distinct names |
| Tools.RegisteredIndices | src/yaoc/tools.py:56-63 | the registry keeps the providers' order |
| Tools.SearchToolNeedsKey | src/yaoc/tools.py:130-133 | `web_search` is a key of the table, and the name of a specification in the list, exactly when the API key is set and non-empty and web access is enabled |
| Tools.SearchRegistered | src/yaoc/tools.py:57-63 | with the API key and web access, the search tool's instance is registered |
| Tools.NoSearchRegistered | src/yaoc/tools.py:130-133 | without the API key or without web access, no registered tool is named `web_search` |
| Tools.NamePresent | src/yaoc/tools.py:61-63 | a registered tool is in the table under its name and its specification is in the list |
| Tools.NameAbsent | src/yaoc/tools.py:61-63 | a name no registered tool carries is in neither the table nor the list |
| Tools.DiscoveredNamesDistinct | src/yaoc/tools.py:76-279 | the six built-in tools have distinct names, so table and list have equal size for any flags and any API key |
| Tools.AllDisabledEmpty | src/yaoc/tools.py:53-63 | with every flag false nothing is enabled and nothing registered |
| Tools.OnlyBasicEnabled | src/yaoc/tools.py:53 | with only `basic` set, exactly the basic category is enabled |
| Tools.NoneEnabled | src/yaoc/tools.py:56-65 | providers that all fail or are all disabled register nothing |
| Tools.OnlyBasicIsTime | src/yaoc/tools.py:76-90 | with only the basic category the registry is exactly `get_time` |
| Tools.ToolManager.constructor | src/yaoc/tools.py:52-65 | `specs` is the specification list of `Registered` and `tools` its table, and the two fields are linked |
| Tools.ToolManager.RunTool | src/yaoc/tools.py:67-73 | a registered name runs exactly that tool; an unknown name gives "Tool '<name>' not found." and runs nothing; the registry is unchanged |
| Tools.Register | src/yaoc/tools.py:56-63 | the loop over the providers leaves the table and the list of exactly the tools `Registered` keeps |
| Tools.RegisterSkip | src/yaoc/tools.py:57-65 | a provider that fails or is disabled leaves table and list as they were |
| Tools.RegisterAdd | src/yaoc/tools.py:61-63 | an enabled instance is entered in the table under its name and its specification appended to the list |
| Tools.RegisteredStep | src/yaoc/tools.py:56-63 | one pass of the constructor's loop appends one provider's contribution to list and table |
| Tools.ValidTable | src/yaoc/tools.py:61-63 | each key of a table names its tool, and that tool's specification is in the list |
| Text.TrimStart | src/yaoc/openai_cli.py:311-312 | the result is a suffix of the input, what it drops is whitespace, and it starts with no whitespace |
| Text.TrimEnd | src/yaoc/openai_cli.py:311-312 | the result is a prefix of the input, what it drops is whitespace, and it ends with no whitespace |
| Text.Strip | src/yaoc/openai_cli.py:311-312 | stripping never lengthens, and leaves nothing exactly when the text is all whitespace |
| Text.StripShape | src/yaoc/openai_cli.py:311-312 | the input is whitespace, then the stripped text, then whitespace |
| Text.StripTrimmed | src/yaoc/openai_cli.py:371-372 | the stripped text neither starts nor ends with whitespace |
| Text.StripPadded | src/yaoc/openai_cli.py:371-372 | stripping whitespace-padded trimmed text gives that text back |
| Text.StripIdempotent | src/yaoc/openai_cli.py:311-312 | stripping twice equals stripping once |
| Text.StripKeepsOut | src/yaoc/openai_cli.py:370-371 | stripping text that does not contain a pattern cannot make it contain the pattern |
| Text.FindFrom | src/yaoc/openai_cli.py:361-363 | the result is an occurrence at or after the start, with none between; None means no occurrence |
| Text.Find | src/yaoc/openai_cli.py:361-363 | the first occurrence, or None exactly when there is none |
| Text.Contains | src/yaoc/openai_cli.py:361-363 | `pat in s` holds exactly when `pat` occurs at some index |
| Text.StartsWith | src/yaoc/openai_cli.py:317 | `s.startswith(p)` holds exactly when `s` is at least as long and agrees with `p` on its first characters |
| Text.EndsWith | src/yaoc/openai_cli.py:308 | `s.endswith(p)` holds exactly when `s` is at least as long and agrees with `p` on its last characters |
| Text.Split | src/yaoc/openai_cli.py:307 | `split` gives at least one piece |
| Text.SplitPiecesFree | src/yaoc/openai_cli.py:307 | no piece contains the separator |
| Text.JoinSplit | src/yaoc/openai_cli.py:307 | joining the pieces with the separator gives the input back |
| Text.TwoParts | src/yaoc/openai_cli.py:307-308 | with two pieces the input is first piece, separator, second piece, so it ends with the second piece |
| Text.SplitFirst | src/yaoc/openai_cli.py:307-308 | more than one piece exactly when the separator occurs; the first piece precedes the first occurrence |
| Text.SplitOnce | src/yaoc/openai_cli.py:370 | `split(sep, 1)` gives two halves around an occurrence, and the first half has no occurrence |
| Text.FirstOccurrence | src/yaoc/openai_cli.py:370-372 | for a marker whose first character does not recur in it, `t + marker + u` with no marker in `t` splits back into `t` and `u` |
| Messages.ReplayAppend | src/yaoc/openai_cli.py:468-486 | reading a concatenated log is reading one part after the other |
| Messages.ReplayAnswers | src/yaoc/openai_cli.py:475-480 | tool messages answering the first waiting calls by id and name leave exactly the remaining calls waiting |
| Messages.SettledAppendPrompt | src/yaoc/openai_cli.py:427-456 | appending a system or user message to a settled log keeps it settled |
| ImageTag.SplitTag | src/yaoc/openai_cli.py:307-312 | no tag is its own error; exactly one tag gives the stripped halves around it; a tagged prompt is refused only with `TagNotAtEnd`, exactly when a second tag follows the first |
| ImageTag.EndsWithTestIsRedundant | src/yaoc/openai_cli.py:307-309 | with exactly two pieces the `endswith(parts[1])` test always passes |
| ImageTag.ImageMime | src/yaoc/openai_cli.py:313-315 | accepted exactly when a type is guessed and it starts with `image/`; otherwise the error names the guess |
| ImageTag.LoadImage | src/yaoc/openai_cli.py:317-326 | an `http://` or `https://` path is downloaded, failing with `BadUrl` when the URL is rejected and `FetchFailed` when the request fails; any other path is read when it exists, and a missing file gives `FileNotFound` |
| ImageTag.LoadedBytes | src/yaoc/openai_cli.py:317-326 | unfolds `LoadImage` for use in later proofs: loaded bytes are the download's body for a web path and the file's contents otherwise |
| ImageTag.DataUrl | src/yaoc/openai_cli.py:329 | the URL starts with `data:`, ends with the payload, and has the length of its four parts |
| ImageTag.ParseDataUrl | src/yaoc/openai_cli.py:328-329 | a URL the reader accepts is the data URL of the media type and payload it returns |
| ImageTag.DataUrlRoundTrip | src/yaoc/openai_cli.py:328-329 | the data URL gives back its media type and payload whenever the type has no `;` |
| ImageTag.ParseImage | src/yaoc/openai_cli.py:306-330 | errors of the split, of the MIME check and of the load are passed on unchanged, in that order; no tag is reported exactly when there is none; a success keeps the stripped text and passed both checks |
| ImageTag.Attach | src/yaoc/openai_cli.py:313-330 | a failed MIME check gives the unsupported-type error before anything is loaded; otherwise the result succeeds exactly when loading does, fails with the load's own error, and keeps the text |
| ImageTag.ImageUrlRoundTrip | src/yaoc/openai_cli.py:328-330 | a returned URL starts with `data:<mime>;base64,` and reads back as the guessed type and the encoded image |
| ImageTag.MimeCheckedBeforeLoad | src/yaoc/openai_cli.py:313-326 | when the MIME check fails, the network and the file system make no difference and the error is the unsupported type |
| ImageTag.SplitTagOf | src/yaoc/openai_cli.py:307-312 | `text@image:path` with tag-free pieces splits into the stripped text and path |
| ImageTag.ParseImageOf | src/yaoc/openai_cli.py:306-330 | with a loadable image the result is the stripped text and the data URL of the loaded bytes |
| ImageTag.NonImageRefused | src/yaoc/openai_cli.py:313-315 | a path whose guessed type is not an image type is refused |
| Presenter.AnswerMarker | src/yaoc/openai_cli.py:360-364 | `<answer>` whenever it occurs, else the end marker whenever it occurs, else none; the marker occurs in the content |
| Presenter.SplitResponse | src/yaoc/openai_cli.py:354-372 | a non-empty reasoning channel wins unchanged; with no marker the thinking is empty and the content unstripped; with a marker both halves are trimmed and the thinking holds no marker |
| Presenter.MarkerSplit | src/yaoc/openai_cli.py:370-372 | the thinking is the stripped text before the first occurrence of the marker and the answer the stripped text after it; both are trimmed and the thinking holds no marker |
| Presenter.StrippedPieces | src/yaoc/openai_cli.py:370-372 | both stripped halves are trimmed, and the thinking half still holds no marker |
| Presenter.ShownThinking | src/yaoc/openai_cli.py:374-375 | the thinking is printed exactly when it is non-empty and not hidden |
| Presenter.ReasoningIgnoresMarkers | src/yaoc/openai_cli.py:356-358 | with a reasoning channel, inline markers are ignored |
| Presenter.AnswerTagSplit | src/yaoc/openai_cli.py:361-372 | `pre<answer>post` with no `<answer>` in `pre` shows `pre` and `post`, each stripped |
| Presenter.EndTagSplit | src/yaoc/openai_cli.py:363-372 | `pre<\|end\|>post` in a message with no `<answer>` shows `pre` and `post`, each stripped |
| Presenter.AnswerTagRoundTrip | src/yaoc/openai_cli.py:361-372 | `thinking<answer>answer`, with trimmed halves and no `<answer>` in the thinking, splits back into its halves |
| Presenter.EndTagRoundTrip | src/yaoc/openai_cli.py:363-372 | the same round trip for the end marker when the message has no `<answer>` |
| Presenter.MarkerRoundTrip | src/yaoc/openai_cli.py:370-372 | splitting at the chosen marker undoes writing the halves around it |
| Client.BuildPayload | src/yaoc/openai_cli.py:393-400 | the keys are `model`, `messages`, `stream`, plus `cache_prompt` when asked for and `tools`, `tool_choice` when there are specifications; `stream` is false and `tool_choice` is `auto` |
| Client.PayloadRoundTrip | src/yaoc/openai_cli.py:393-400 | the body reads back as the model, the whole log, the caching flag and the specifications |
| Client.ToolsOfferedIffSpecs | src/yaoc/openai_cli.py:396-400 | `tools` and `tool_choice` are present exactly when there are specifications, `cache_prompt` exactly when asked for |
| Client.ModelChoice | src/yaoc/openai_cli.py:344-351 | a chosen model is listed; without a request only an empty listing fails, and a requested model fails only as not found |
| Client.NamedModelChoice | src/yaoc/openai_cli.py:347-351 | a named model is used exactly when listed, and then as named |
| Client.DefaultModelChoice | src/yaoc/openai_cli.py:344-345 | without a request the first listed id is taken, and only an empty listing fails |
| Client.GetModelName | src/yaoc/openai_cli.py:344-351 | the scan returns the model choice |
| Client.EmptyModelSentAsWritten | src/yaoc/openai_cli.py:464-466 | as written, with no `--model` the requests name the empty model, which the server does not list |
| Client.SentModelListed | src/yaoc/openai_cli.py:415-417 | every request names a listed model, and the requested one when a model was named |
| Client.CliFlags | src/yaoc/openai_cli.py:419-423 | every flag the command line yields names a category, every category has a flag, and `basic` is on |
| Client.CliFlagsEnabled | src/yaoc/openai_cli.py:419-423 | the command-line flags never make the registry fail; `basic` is always enabled and the others exactly when their flag is given |
| Chat.UserMessage | src/yaoc/openai_cli.py:441-456 | a prompt without the tag is the plain user message; with the tag it fails exactly when `parse_image` fails, with its error (never the missing-tag one), and otherwise is the text and image parts |
| Chat.ImagePrompt | src/yaoc/openai_cli.py:441-453 | an image prompt becomes the parts `[text, image_url]`, with the stripped text and the image's data URL |
| Chat.Answer | src/yaoc/openai_cli.py:471-480 | a call is answered, with the tool's result under the call's id and name, exactly when its arguments decode and its name is registered; bad arguments fail first, then an unknown name fails with "Tool '<name>' not found." |
| Chat.Round | src/yaoc/openai_cli.py:471-480 | a round appends at most one message per call, and all of them exactly when no call fails |
| Chat.RoundStopsAtFirstFailure | src/yaoc/openai_cli.py:471-480 | the appended messages answer the calls in order, and the failure is the first failing call's |
| Chat.RoundConcat | src/yaoc/openai_cli.py:471-480 | a round over two call lists runs the second only after the first ran to the end |
| Chat.RoundSnoc | src/yaoc/openai_cli.py:471-480 | one more successful call appends its tool message |
| Chat.RoundFailsAt | src/yaoc/openai_cli.py:471-480 | the first failing call ends the round with that call's failure |
| Chat.RoundAnswers | src/yaoc/openai_cli.py:475-480 | a round's messages answer its calls, leaving only the unanswered ones waiting |
| Chat.Continue | src/yaoc/openai_cli.py:470-486 | the tool-call loop consumes no more replies than there are |
| Chat.ContinueStep | src/yaoc/openai_cli.py:470-486 | unfolds `Continue` for use in later proofs: a pass appends the round's tool messages, then exactly one assistant message, then continues from that message |
| Chat.ContinueStops | src/yaoc/openai_cli.py:470-485 | unfolds `Continue` for use in later proofs: the loop stops with no tool calls to run, on a failing call, with no reply left, or on a failed request |
| Chat.Dispatch | src/yaoc/openai_cli.py:463-486 | a turn consumes no more replies than there are |
| Chat.ContinueFinished | src/yaoc/openai_cli.py:470 | the loop finishes only on an assistant message with no tool call to run, and that message was the last appended |
| Chat.DispatchFinished | src/yaoc/openai_cli.py:463-493 | an answered turn ends with the shown assistant message, which asks for no tool the client would run |
| Chat.AssistantPending | src/yaoc/openai_cli.py:468 | an assistant message after a settled log leaves its calls waiting |
| Chat.RoundSettles | src/yaoc/openai_cli.py:471-480 | a round keeps the log linked, and settles it when no call fails |
| Chat.ContinueLinked | src/yaoc/openai_cli.py:470-486 | the tool-call loop keeps the log linked and ends it settled when it finishes |
| Chat.DispatchLinked | src/yaoc/openai_cli.py:441-486 | a turn keeps the log linked and leaves it settled when the answer is shown |
| Chat.NoToolsSingleRequest | src/yaoc/openai_cli.py:470 | with no tools offered a turn makes one request and appends only the reply, whatever tool calls it holds |
| Chat.Outcome | src/yaoc/openai_cli.py:354-375 | a finished turn is shown, split as `print_response` splits it and with its reasoning printed unless hidden; a failed turn ends the session |
| Chat.RefusedImage | src/yaoc/openai_cli.py:441-497 | a second tag, a non-image type, a missing file or a rejected URL skips the prompt with that error; a failed download ends the session; neither appends anything or consumes a reply |
| Chat.Turn | src/yaoc/openai_cli.py:441-497 | a turn consumes no more replies than there are; a skipped prompt appends nothing, consumes nothing, and was refused by a `ValueError` |
| Chat.TurnShown | src/yaoc/openai_cli.py:441-493 | a shown turn appended the user message first and the shown assistant message last, and that message asks for no tool the client would run |
| Chat.TurnLinked | src/yaoc/openai_cli.py:441-497 | a turn started on a settled log keeps it linked, and settled unless the session ends |
| Chat.StepLinked | src/yaoc/openai_cli.py:441-486 | the same for a turn given by its user message: nothing appended when refused, else the message and the exchange |
| Chat.LinkedAfterTurn | src/yaoc/openai_cli.py:432-497 | what holds after the rest of the session holds after the turn before it too |
| Chat.Play | src/yaoc/openai_cli.py:432-499 | the session from one prompt on consumes no more replies than there are |
| Chat.StopsAfterTurn | src/yaoc/openai_cli.py:432-497 | a turn that does not end the session, followed by a session that stops only when ended, stops only when ended |
| Chat.PlayStops | src/yaoc/openai_cli.py:432-499 | at most one outcome per prompt; no outcome but the last ends the session; fewer outcomes than prompts only when the last one ended it |
| Chat.PlayLinked | src/yaoc/openai_cli.py:432-499 | the session keeps a settled log linked, and settled unless a turn ended it |
| Chat.Session.constructor | src/yaoc/openai_cli.py:427-429 | the log starts with the system prompt when one is given, and empty otherwise |
| Chat.Session.CallLlm | src/yaoc/openai_cli.py:392-411 | posting records the request body and consumes one reply; the log is unchanged |
| Chat.Session.Post | src/yaoc/openai_cli.py:464-467 | posting a settled log keeps every request settled and consumes one reply |
| Chat.Session.RunToolCalls | src/yaoc/openai_cli.py:471-480 | the loop appends exactly the round's tool messages and returns the round's failure |
| Chat.Session.ToolStep | src/yaoc/openai_cli.py:471-486 | one pass appends what `Continue` appends for it and either continues from the new assistant message or stops as `Continue` does |
| Chat.Session.ToolLoop | src/yaoc/openai_cli.py:470-486 | the while loop appends what `Continue` specifies, consumes the replies it uses, ends as it does, and posts only settled logs |
| Chat.Session.Converse | src/yaoc/openai_cli.py:463-486 | the user message and then what `Dispatch` specifies are appended |
| Chat.Session.UserTurn | src/yaoc/openai_cli.py:441-497 | a prompt whose image is refused with a `ValueError` (bad tag, type, file or URL) appends nothing and is skipped; any other failed download ends the session; otherwise the turn follows `Dispatch`. The log only grows and stays linked, and is settled unless the session ends |
| Chat.Session.PlayTurn | src/yaoc/openai_cli.py:432-497 | one pass of the `while True` loop plays the next turn of `Play` and leaves the rest of `Play` to come |
| Chat.Session.Run | src/yaoc/openai_cli.py:432-499 | the outcomes, the appended messages and the replies consumed are those of `Play`; every request is settled and the log linked, and valid again unless the session ended |
| Chat.Launch | src/yaoc/openai_cli.py:414-466 | fails exactly when the model choice fails; otherwise the session, as written, names the `--model` argument in its requests, has the registry of the command-line flags and the built-in providers, and the initial log |
| Chat.OpenSession | src/yaoc/openai_cli.py:419-429 | the registry is that of the command-line flags and the built-in providers, and the session starts with the initial log |
| Chat.LaunchCorrected | src/yaoc/openai_cli.py:414-429 | as `Launch`, but the session names the resolved model, which is listed, and is the requested one when a model was named |

## Left out

- HTTP: the `/models` listing is a sequence of ids. The completion endpoint is a scripted sequence of replies; a `RequestException` is `TransportError`. Headers, the base URL and the API key are not modelled.
- `Chat.Session.Run` and `Chat.Dispatch`: the `OutOfReplies` failure exists only because the scripted model can run out of replies; the real server always answers or raises.
- Tool `run` bodies (clock, web fetch and search, directory listing, file read and write) are the oracle `run`. Their "Error: ..." result convention is not modelled.
- `json.loads` is the oracle `parseArgs`. A `TypeError` from passing keyword arguments that do not fit `run` is not modelled.
- `mimetypes.guess_type`, the download, `os.path.exists`, the file read and base64 encoding are oracles in `ImageEnv`. Base64 itself is not modelled.
- `ImageTag.LoadImage`: an `OSError` from opening or reading a path that exists (a directory, a file without read permission) is not modelled. The read is the oracle `ImageEnv.read`, which always succeeds. In the program that error is neither a `ValueError` nor a `RequestException`, so it escapes `main`.
- `Tools.ToolManager.constructor`: requires that every true flag names a category. The `ValueError` that `ToolType(t)` raises otherwise is modelled by `Tools.EnabledCategories` returning an error. The command line never produces such a flag (`Client.CliFlagsEnabled`).
- Discovery by `Tools.__subclasses__()` is an explicit, ordered list of providers (`Tools.Discovered`). `WebSearchTool` fails exactly when `LANGSEARCH_API_KEY` is unset or empty (`Tools.SearchToolNeedsKey`).
- `Tools.Discovered`: its contract does not state the providers' order or specifications. Their names are stated by `Tools.DiscoveredNamesDistinct` and `Tools.OnlyBasicIsTime`.
- Printing: the "Cannot initialize" diagnostic, "Using model", the tool list, `cprint`, and rendering the answer as Markdown. The `isatty` branches, the prompt text and the spinner thread are also left out.
- `KeyboardInterrupt` is not modelled. `EOFError` is the end of the prompt sequence.
- `argparse` is not modelled. The tool flags it produces are `Client.CliFlags`, with `basic` always true.
- An assistant message with `content` set to `None` is not modelled; content is always a string.
- Errors that escape `main`: the code catches only `RequestException`, `KeyboardInterrupt` and `EOFError`. So a `ValueError` from `json.loads` (malformed tool arguments) or from `run_tool` (unknown tool) propagates out of `main`. Both end the session in the model (`MalformedArguments`, `ToolNotFound`).
- An image download inside `parse_image` can fail in two ways. `requests` raises `InvalidURL`, `MissingSchema` and `InvalidSchema` as subclasses of both `RequestException` and `ValueError`; the `except ValueError` around `parse_image` catches them first, so the prompt is skipped (`BadUrl`). Any other `RequestException` (a connection error, an HTTP error status) is not a `ValueError`; it reaches the outer handler and ends the session (`ImageFetchFailed`). Which URLs `requests` rejects is the oracle `ImageEnv.fetch`.

## Findings

| source | as written | input that shows it | evidently intended | confidence | as-written member | corrected member |
|---|---|---|---|---|---|---|
| src/yaoc/openai_cli.py:464-466 | every request names `args.model`; the `model_name` that `get_model_name` resolved (line 415) is never used | `--model` not given, server lists `["m"]`: "Using model: m" is announced, yet each request body has `"model": ""` | requests name the resolved model | medium, not executed | Client.EmptyModelSentAsWritten, Chat.Launch | Chat.LaunchCorrected, Client.SentModelListed |

=== FILE: chat.dfy ===
/**
 * The interactive session of `main`: each prompt becomes a user message,
 * the log is posted to the model, and while tools are offered and the
 * assistant asks for tool calls, each call is dispatched to the registry,
 * its result appended as a tool message, and the model asked again.
 *
 * The remote model is a scripted sequence of replies, consumed one per
 * request; the prompts are a sequence of lines, whose end is end of input.
 * `json.loads` on a call's arguments is `parseArgs`, and a tool's `run` is
 * `run`; both are parameters of the session.
 */
module Chat {
  import opened Wrappers
  import opened Text
  import opened Messages
  import opened Tools
  import opened Client
  import opened ImageTag
  import opened Presenter

  /** What one `call_llm` gets back: the `message` of the first choice, or a
      `requests.RequestException` (connection error or non-2xx status). */
  datatype Reply = Reply(turn: AssistantTurn) | TransportError

  /** Why a turn stops before an answer is shown. `RequestFailed` and
      `ImageFetchFailed` are `RequestException`s, which `main` reports before
      leaving the loop; `MalformedArguments` (from `json.loads`) and
      `ToolNotFound` (from `run_tool`) are `ValueError`s that nothing catches.
      `OutOfReplies` means the scripted model has no reply left. Each one ends
      the session. */
  datatype Failure =
    | RequestFailed
    | ImageFetchFailed(url: string)
    | MalformedArguments(callId: string)
    | ToolNotFound(message: string)
    | OutOfReplies

  /** What the dispatch loop works with: whether tools are offered (the
      registry has specifications), the registry's table, the argument
      decoder and the tools' `run`. */
  datatype Ctx = Ctx(offered: bool, tools: map<string, Tool>,
                     parseArgs: string -> Option<Args>, run: (Tool, Args) -> string)

  /** The user message `main` appends for a prompt: the plain text, or, when
      the prompt has the image tag, a text part and an image part built by
      `parse_image`. */
  function UserMessage(input: string, env: ImageEnv): (r: Result<Message, ImageError>)
    ensures !Contains(input, Tag) ==> r == Ok(User(Plain(input)))
    ensures Contains(input, Tag) ==> (r.Err? <==> ParseImage(input, env).Err?)
    ensures r.Err? ==> r.error == ParseImage(input, env).error && r.error != NoTag
    ensures Contains(input, Tag) && r.Ok? ==>
      r.value == User(Multimodal([TextPart(ParseImage(input, env).value.0), ImageUrlPart(ParseImage(input, env).value.1)]))
  {
    if Contains(input, Tag) then
      match ParseImage(input, env)
      case Ok((text, url)) => Ok(User(Multimodal([TextPart(text), ImageUrlPart(url)])))
      case Err(e) => Err(e)
    else Ok(User(Plain(input)))
  }

  /** A prompt `text@image:path` whose path names a loadable image becomes a
      two-part message: the stripped text and the image's data URL. */
  lemma ImagePrompt(text: string, path: string, env: ImageEnv)
    requires !Contains(text, Tag) && !Contains(path, Tag)
    requires ImageMime(Strip(path), env).Ok? && LoadImage(Strip(path), env).Ok?
    ensures UserMessage(text + Tag + path, env) ==
      Ok(User(Multimodal([TextPart(Strip(text)),
                          ImageUrlPart(DataUrl(env.guessType(Strip(path)).value,
                                               env.base64(LoadImage(Strip(path), env).value)))])))
  {
    ParseImageOf(text, path, env);
    SplitTagOf(text, path);
  }

  /** One tool call of a round: decode the arguments, then run the tool
      registered under the call's name, giving the tool message that answers
      the call. Undecodable arguments are reported before an unknown name. */
  function Answer(c: ToolCall, ctx: Ctx): (r: Result<Message, Failure>)
    ensures r.Ok? ==> r.value.ToolResult? && r.value.toolCallId == c.id && r.value.name == c.name
    ensures r.Ok? <==> ctx.parseArgs(c.arguments).Some? && c.name in ctx.tools
    ensures r.Ok? ==> r.value.result == ctx.run(ctx.tools[c.name], ctx.parseArgs(c.arguments).value)
    ensures ctx.parseArgs(c.arguments).None? ==> r == Err(MalformedArguments(c.id))
    ensures ctx.parseArgs(c.arguments).Some? && c.name !in ctx.tools ==>
      r == Err(ToolNotFound("Tool '" + c.name + "' not found."))
  {
    match ctx.parseArgs(c.arguments)
    case None => Err(MalformedArguments(c.id))
    case Some(args) =>
      if c.name in ctx.tools then Ok(ToolResult(c.id, c.name, ctx.run(ctx.tools[c.name], args)))
      else Err(ToolNotFound("Tool '" + c.name + "' not found."))
  }

  /** The tool messages one round appends, and the failure that cut it short. */
  datatype RoundResult = RoundResult(appended: seq<Message>, failure: Option<Failure>)

  /** The `for tool_call in assistant_message["tool_calls"]` loop: the calls
      are answered in order until one fails. */
  function Round(calls: seq<ToolCall>, ctx: Ctx): (r: RoundResult)
    ensures |r.appended| <= |calls|
    ensures r.failure.None? <==> |r.appended| == |calls|
    decreases |calls|
  {
    if calls == [] then RoundResult([], None)
    else match Answer(calls[0], ctx)
      case Err(f) => RoundResult([], Some(f))
      case Ok(m) =>
        var rest := Round(calls[1..], ctx);
        RoundResult([m] + rest.appended, rest.failure)
  }

  /** A round stops at its first failing call: every call before it is
      answered, in order, and the failure is that call's. */
  lemma {:induction false} RoundStopsAtFirstFailure(calls: seq<ToolCall>, ctx: Ctx)
    ensures forall j :: 0 <= j < |Round(calls, ctx).appended| ==> Answer(calls[j], ctx) == Ok(Round(calls, ctx).appended[j])
    ensures Round(calls, ctx).failure.Some? ==> Answer(calls[|Round(calls, ctx).appended|], ctx) == Err(Round(calls, ctx).failure.value)
    decreases |calls|
  {
    if calls != [] && Answer(calls[0], ctx).Ok? {
      RoundStopsAtFirstFailure(calls[1..], ctx);
    }
  }

  /** A round over a concatenation runs the second part only when the first
      part ran to the end. */
  lemma {:induction false} RoundConcat(p: seq<ToolCall>, q: seq<ToolCall>, ctx: Ctx)
    ensures Round(p + q, ctx) ==
      if Round(p, ctx).failure.None? then RoundResult(Round(p, ctx).appended + Round(q, ctx).appended, Round(q, ctx).failure)
      else Round(p, ctx)
    decreases |p|
  {
    if p == [] {
      assert p + q == q;
    } else {
      assert (p + q)[0] == p[0] && (p + q)[1..] == p[1..] + q;
      match Answer(p[0], ctx)
      case Err(f) =>
        assert Round(p + q, ctx) == RoundResult([], Some(f)) == Round(p, ctx);
      case Ok(m) =>
        var rest, both := Round(p[1..], ctx), Round(p[1..] + q, ctx);
        assert Round(p, ctx) == RoundResult([m] + rest.appended, rest.failure);
        assert Round(p + q, ctx) == RoundResult([m] + both.appended, both.failure);
        RoundConcat(p[1..], q, ctx);
        ConcatAssoc([m], rest.appended, Round(q, ctx).appended);
    }
  }

  /** Running one more call after a clean prefix. */
  lemma RoundSnoc(calls: seq<ToolCall>, i: nat, ctx: Ctx)
    requires i < |calls| && Round(calls[..i], ctx).failure.None? && Answer(calls[i], ctx).Ok?
    ensures Round(calls[..i + 1], ctx) == RoundResult(Round(calls[..i], ctx).appended + [Answer(calls[i], ctx).value], None)
  {
    assert calls[..i + 1] == calls[..i] + [calls[i]];
    RoundConcat(calls[..i], [calls[i]], ctx);
  }

  /** The first failing call after a clean prefix ends the round. */
  lemma RoundFailsAt(calls: seq<ToolCall>, i: nat, ctx: Ctx)
    requires i < |calls| && Round(calls[..i], ctx).failure.None? && Answer(calls[i], ctx).Err?
    ensures Round(calls, ctx) == RoundResult(Round(calls[..i], ctx).appended, Some(Answer(calls[i], ctx).error))
  {
    assert calls == calls[..i] + calls[i..];
    RoundConcat(calls[..i], calls[i..], ctx);
    assert calls[i..][0] == calls[i];
  }

  /** The tool messages of a round answer the round's calls, in order: the
      calls they answer are no longer waiting. */
  lemma RoundAnswers(calls: seq<ToolCall>, ctx: Ctx)
    ensures Replay(Some(calls), Round(calls, ctx).appended, ctx.offered) == Some(calls[|Round(calls, ctx).appended|..])
  {
    RoundStopsAtFirstFailure(calls, ctx);
    ReplayAnswers(calls, Round(calls, ctx).appended, ctx.offered);
  }

  /** How a turn ends: with an assistant message to show, or with a failure. */
  datatype TurnEnd = Finished(turn: AssistantTurn) | Failed(failure: Failure)

  /** What a turn appends to the log after the user message, how it ends,
      and how many replies it consumed. */
  datatype Exchange = Exchange(appended: seq<Message>, outcome: TurnEnd, used: nat)

  /** The `while tool_manager.specs and assistant_message.get("tool_calls")`
      loop, entered with the assistant message `a` already in the log. */
  function Continue(a: AssistantTurn, replies: seq<Reply>, ctx: Ctx): (x: Exchange)
    ensures x.used <= |replies|
    decreases |replies|
  {
    if !(ctx.offered && |a.toolCalls| > 0) then Exchange([], Finished(a), 0)
    else
      var round := Round(a.toolCalls, ctx);
      if round.failure.Some? then Exchange(round.appended, Failed(round.failure.value), 0)
      else if replies == [] then Exchange(round.appended, Failed(OutOfReplies), 0)
      else match replies[0]
        case TransportError => Exchange(round.appended, Failed(RequestFailed), 1)
        case Reply(b) =>
          var rest := Continue(b, replies[1..], ctx);
          Exchange(round.appended + [Assistant(b)] + rest.appended, rest.outcome, rest.used + 1)
  }

  /** Unfolds `Continue` for one more pass of the tool-call loop: the
      round's messages, the next assistant message, then the loop again from
      that message. */
  lemma ContinueStep(a: AssistantTurn, replies: seq<Reply>, ctx: Ctx)
    requires ctx.offered && |a.toolCalls| > 0 && Round(a.toolCalls, ctx).failure.None?
    requires replies != [] && replies[0].Reply?
    ensures Continue(a, replies, ctx) ==
      Exchange(Round(a.toolCalls, ctx).appended + [Assistant(replies[0].turn)] + Continue(replies[0].turn, replies[1..], ctx).appended,
               Continue(replies[0].turn, replies[1..], ctx).outcome,
               Continue(replies[0].turn, replies[1..], ctx).used + 1)
  {
  }

  /** Unfolds `Continue` where the tool-call loop stops: no calls to run, a
      failing call, no reply left, or a failed request. */
  lemma ContinueStops(a: AssistantTurn, replies: seq<Reply>, ctx: Ctx)
    ensures !(ctx.offered && |a.toolCalls| > 0) ==> Continue(a, replies, ctx) == Exchange([], Finished(a), 0)
    ensures ctx.offered && |a.toolCalls| > 0 && Round(a.toolCalls, ctx).failure.Some? ==>
      Continue(a, replies, ctx) == Exchange(Round(a.toolCalls, ctx).appended, Failed(Round(a.toolCalls, ctx).failure.value), 0)
    ensures ctx.offered && |a.toolCalls| > 0 && Round(a.toolCalls, ctx).failure.None? && replies == [] ==>
      Continue(a, replies, ctx) == Exchange(Round(a.toolCalls, ctx).appended, Failed(OutOfReplies), 0)
    ensures ctx.offered && |a.toolCalls| > 0 && Round(a.toolCalls, ctx).failure.None? && replies != [] && replies[0].TransportError? ==>
      Continue(a, replies, ctx) == Exchange(Round(a.toolCalls, ctx).appended, Failed(RequestFailed), 1)
  {
  }

  /** The part of one turn after the user message: the first request, then the
      tool-call loop. */
  function Dispatch(replies: seq<Reply>, ctx: Ctx): (x: Exchange)
    ensures x.used <= |replies|
  {
    if replies == [] then Exchange([], Failed(OutOfReplies), 0)
    else match replies[0]
      case TransportError => Exchange([], Failed(RequestFailed), 1)
      case Reply(a) =>
        var rest := Continue(a, replies[1..], ctx);
        Exchange([Assistant(a)] + rest.appended, rest.outcome, rest.used + 1)
  }

  /** The tool-call loop only stops with an answer on an assistant message
      that asks for no tool the client would run, and that message is the
      last one it appended (or the one it was entered with). */
  lemma {:induction false} ContinueFinished(a: AssistantTurn, replies: seq<Reply>, ctx: Ctx)
    requires Continue(a, replies, ctx).outcome.Finished?
    ensures !(ctx.offered && |Continue(a, replies, ctx).outcome.turn.toolCalls| > 0)
    ensures (Continue(a, replies, ctx).appended == [] && Continue(a, replies, ctx).outcome.turn == a) ||
            (|Continue(a, replies, ctx).appended| > 0 &&
             Continue(a, replies, ctx).appended[|Continue(a, replies, ctx).appended| - 1] ==
               Assistant(Continue(a, replies, ctx).outcome.turn))
    decreases |replies|
  {
    if ctx.offered && |a.toolCalls| > 0 {
      var b := replies[0].turn;
      ContinueFinished(b, replies[1..], ctx);
    }
  }

  /** A turn that reaches an answer ends with the assistant message shown,
      and that message asks for no tool the client would run. */
  lemma DispatchFinished(replies: seq<Reply>, ctx: Ctx)
    requires Dispatch(replies, ctx).outcome.Finished?
    ensures !(ctx.offered && |Dispatch(replies, ctx).outcome.turn.toolCalls| > 0)
    ensures |Dispatch(replies, ctx).appended| > 0
    ensures Dispatch(replies, ctx).appended[|Dispatch(replies, ctx).appended| - 1] == Assistant(Dispatch(replies, ctx).outcome.turn)
  {
    ContinueFinished(replies[0].turn, replies[1..], ctx);
  }

  /** Appending an assistant message to a settled log leaves its pending
      calls waiting. */
  lemma AssistantPending(log: seq<Message>, a: AssistantTurn, offered: bool)
    requires Settled(log, offered)
    ensures Replay(Some([]), log + [Assistant(a)], offered) == Some(Pending(a, offered))
  {
    ReplayAppend(Some([]), log, [Assistant(a)], offered);
  }

  /** A round that runs all the calls of the last assistant message settles
      the log; one cut short leaves it linked. */
  lemma RoundSettles(log: seq<Message>, a: AssistantTurn, ctx: Ctx)
    requires ctx.offered
    requires Replay(Some([]), log, ctx.offered) == Some(Pending(a, ctx.offered))
    ensures Linked(log + Round(a.toolCalls, ctx).appended, ctx.offered)
    ensures Round(a.toolCalls, ctx).failure.None? ==> Settled(log + Round(a.toolCalls, ctx).appended, ctx.offered)
  {
    ReplayAppend(Some([]), log, Round(a.toolCalls, ctx).appended, ctx.offered);
    RoundAnswers(a.toolCalls, ctx);
    assert a.toolCalls[|a.toolCalls|..] == [];
  }

  /** Whatever the replies, the tool-call loop keeps the log linked, and it
      ends settled when an answer is reached. */
  lemma {:induction false} ContinueLinked(log: seq<Message>, a: AssistantTurn, replies: seq<Reply>, ctx: Ctx)
    requires Replay(Some([]), log, ctx.offered) == Some(Pending(a, ctx.offered))
    ensures Linked(log + Continue(a, replies, ctx).appended, ctx.offered)
    ensures Continue(a, replies, ctx).outcome.Finished? ==> Settled(log + Continue(a, replies, ctx).appended, ctx.offered)
    decreases |replies|
  {
    var x := Continue(a, replies, ctx);
    if !(ctx.offered && |a.toolCalls| > 0) {
      assert log + x.appended == log;
    } else {
      var round := Round(a.toolCalls, ctx);
      RoundSettles(log, a, ctx);
      if round.failure.None? && replies != [] && replies[0].Reply? {
        var b := replies[0].turn;
        var log2 := log + round.appended + [Assistant(b)];
        AssistantPending(log + round.appended, b, ctx.offered);
        ContinueLinked(log2, b, replies[1..], ctx);
        assert log + x.appended == log2 + Continue(b, replies[1..], ctx).appended;
      }
    }
  }

  /** A turn started on a settled log with a user message keeps the log
      linked, and settles it again when the answer is shown: every tool call
      the model made has been answered by then. */
  lemma DispatchLinked(log: seq<Message>, m: Message, replies: seq<Reply>, ctx: Ctx)
    requires Settled(log, ctx.offered) && m.User?
    ensures Linked(log + ([m] + Dispatch(replies, ctx).appended), ctx.offered)
    ensures Dispatch(replies, ctx).outcome.Finished? ==> Settled(log + ([m] + Dispatch(replies, ctx).appended), ctx.offered)
  {
    SettledAppendPrompt(log, m, ctx.offered);
    var x := Dispatch(replies, ctx);
    ConcatAssoc(log, [m], x.appended);
    if replies != [] && replies[0].Reply? {
      var a := replies[0].turn;
      AssistantPending(log + [m], a, ctx.offered);
      ContinueLinked(log + [m] + [Assistant(a)], a, replies[1..], ctx);
      assert log + [m] + x.appended == log + [m] + [Assistant(a)] + Continue(a, replies[1..], ctx).appended;
    } else {
      assert log + [m] + x.appended == log + [m];
    }
  }

  /** With no tools offered, a turn makes exactly one request and appends at
      most the assistant's message, whatever tool calls it contains. */
  lemma NoToolsSingleRequest(replies: seq<Reply>, ctx: Ctx)
    requires !ctx.offered && replies != []
    ensures Dispatch(replies, ctx).used == 1
    ensures |Dispatch(replies, ctx).appended| <= 1
    ensures replies[0].Reply? ==> Dispatch(replies, ctx).outcome == Finished(replies[0].turn)
  {
  }

  /** What `main` does with one prompt. */
  datatype TurnOutcome =
    | Skipped(error: ImageError)          // a ValueError from parse_image: the prompt is dropped
    | Shown(turn: AssistantTurn, display: Display, thinking: Option<string>)
                                          // the answer print_response renders, and the reasoning it prints
    | Ended(failure: Failure)             // the session stops

  /** How a turn ends, as the loop of `main` reports it: an answer is split
      into reasoning and answer, and the reasoning is printed unless hidden. */
  function Outcome(e: TurnEnd, hideThinking: bool): (o: TurnOutcome)
    ensures e.Finished? <==> o.Shown?
    ensures o.Shown? ==> o.turn == e.turn && o.display == SplitResponse(e.turn)
    ensures o.Shown? ==> o.thinking == ShownThinking(o.display, hideThinking)
    ensures e.Failed? ==> o == Ended(e.failure)
  {
    match e
    case Finished(a) => Shown(a, SplitResponse(a), ShownThinking(SplitResponse(a), hideThinking))
    case Failed(f) => Ended(f)
  }

  /** What one prompt appends to the log, how it ends, and how many replies it
      consumes. */
  datatype TurnStep = TurnStep(appended: seq<Message>, outcome: TurnOutcome, used: nat)

  /** One iteration of the loop of `main`: the user message, then the
      exchange with the model. A refused image appends nothing and consumes
      no reply; a failed download ends the session. */
  function Turn(input: string, env: ImageEnv, replies: seq<Reply>, ctx: Ctx, hideThinking: bool): (t: TurnStep)
    ensures t.used <= |replies|
    ensures t.outcome.Skipped? ==> t.appended == [] && t.used == 0 && IsValueError(t.outcome.error)
  {
    match UserMessage(input, env)
    case Err(e) => TurnStep([], if e.FetchFailed? then Ended(ImageFetchFailed(e.url)) else Skipped(e), 0)
    case Ok(m) =>
      var x := Dispatch(replies, ctx);
      TurnStep([m] + x.appended, Outcome(x.outcome, hideThinking), x.used)
  }

  /** Unfolds `Turn` into its two cases: a prompt whose image is refused
      appends nothing, and any other prompt appends its user message and then
      the exchange with the model. */
  lemma TurnCases(input: string, env: ImageEnv, replies: seq<Reply>, ctx: Ctx, hideThinking: bool)
    ensures UserMessage(input, env).Err? ==>
      var e := UserMessage(input, env).error;
      Turn(input, env, replies, ctx, hideThinking) ==
        TurnStep([], if e.FetchFailed? then Ended(ImageFetchFailed(e.url)) else Skipped(e), 0)
    ensures UserMessage(input, env).Ok? ==>
      var x := Dispatch(replies, ctx);
      Turn(input, env, replies, ctx, hideThinking) ==
        TurnStep([UserMessage(input, env).value] + x.appended, Outcome(x.outcome, hideThinking), x.used)
  {
  }

  /** How `main` handles each way `parse_image` can refuse a tagged prompt: a
      second tag, a non-image type, a missing file or a malformed URL drops
      the prompt with its `ValueError`, and only a failed download ends the
      session. Nothing is appended and no reply is consumed. */
  lemma RefusedImage(input: string, env: ImageEnv, replies: seq<Reply>, ctx: Ctx, hideThinking: bool)
    requires Contains(input, Tag)
    ensures SplitTag(input).Err? ==>
      Turn(input, env, replies, ctx, hideThinking) == TurnStep([], Skipped(TagNotAtEnd), 0)
    ensures SplitTag(input).Ok? && ImageMime(SplitTag(input).value.1, env).Err? ==>
      var path := SplitTag(input).value.1;
      Turn(input, env, replies, ctx, hideThinking) == TurnStep([], Skipped(UnsupportedType(env.guessType(path))), 0)
    ensures SplitTag(input).Ok? && ImageMime(SplitTag(input).value.1, env).Ok? ==>
      var path := SplitTag(input).value.1;
      var web := StartsWith(path, "http://") || StartsWith(path, "https://");
      && (!web && !env.pathExists(path) ==>
            Turn(input, env, replies, ctx, hideThinking) == TurnStep([], Skipped(FileNotFound(path)), 0))
      && (web && env.fetch(path).RejectedUrl? ==>
            Turn(input, env, replies, ctx, hideThinking) == TurnStep([], Skipped(BadUrl(path)), 0))
      && (web && env.fetch(path).RequestFailure? ==>
            Turn(input, env, replies, ctx, hideThinking) == TurnStep([], Ended(ImageFetchFailed(path)), 0))
  {
    TurnCases(input, env, replies, ctx, hideThinking);
  }

  /** A prompt whose answer is shown appends its user message first and the
      shown assistant message last, and that message asks for no tool the
      client would run. */
  lemma TurnShown(input: string, env: ImageEnv, replies: seq<Reply>, ctx: Ctx, hideThinking: bool)
    requires Turn(input, env, replies, ctx, hideThinking).outcome.Shown?
    ensures var t := Turn(input, env, replies, ctx, hideThinking);
      && |t.appended| >= 2 && t.appended[0] == UserMessage(input, env).value
      && t.appended[|t.appended| - 1] == Assistant(t.outcome.turn)
      && !(ctx.offered && |t.outcome.turn.toolCalls| > 0)
  {
    TurnCases(input, env, replies, ctx, hideThinking);
    DispatchFinished(replies, ctx);
  }

  /** A turn started on a settled log keeps it linked, and leaves it settled
      unless the session ends. */
  lemma TurnLinked(log: seq<Message>, input: string, env: ImageEnv, replies: seq<Reply>, ctx: Ctx, hideThinking: bool)
    requires Settled(log, ctx.offered)
    ensures Linked(log + Turn(input, env, replies, ctx, hideThinking).appended, ctx.offered)
    ensures !Turn(input, env, replies, ctx, hideThinking).outcome.Ended? ==>
      Settled(log + Turn(input, env, replies, ctx, hideThinking).appended, ctx.offered)
  {
    TurnCases(input, env, replies, ctx, hideThinking);
    StepLinked(log, UserMessage(input, env), replies, ctx, hideThinking, Turn(input, env, replies, ctx, hideThinking));
  }

  /** `TurnLinked` for a turn `t` given by its user message `um`: nothing
      appended when the prompt is refused, else the message and the exchange. */
  lemma StepLinked(log: seq<Message>, um: Result<Message, ImageError>, replies: seq<Reply>, ctx: Ctx, hideThinking: bool,
                   t: TurnStep)
    requires Settled(log, ctx.offered)
    requires um.Err? ==> t.appended == []
    requires um.Ok? ==>
      && um.value.User?
      && t == TurnStep([um.value] + Dispatch(replies, ctx).appended, Outcome(Dispatch(replies, ctx).outcome, hideThinking),
                       Dispatch(replies, ctx).used)
    ensures Linked(log + t.appended, ctx.offered)
    ensures !t.outcome.Ended? ==> Settled(log + t.appended, ctx.offered)
  {
    if um.Err? {
      assert log + t.appended == log;
    } else {
      DispatchLinked(log, um.value, replies, ctx);
    }
  }

  /** No outcome so far has ended the session. */
  predicate GoesOn(outcomes: seq<TurnOutcome>) {
    |outcomes| == 0 || !outcomes[|outcomes| - 1].Ended?
  }

  /** The step of `PlayLinked`: what holds after the rest of the session
      holds after the first turn too. */
  lemma LinkedAfterTurn(log: seq<Message>, a: seq<Message>, b: seq<Message>, o: TurnOutcome, os: seq<TurnOutcome>,
                        offered: bool)
    requires !o.Ended? && Linked(log + a + b, offered)
    requires GoesOn(os) ==> Settled(log + a + b, offered)
    ensures Linked(log + (a + b), offered)
    ensures GoesOn([o] + os) ==> Settled(log + (a + b), offered)
  {
    ConcatAssoc(log, a, b);
    if os != [] {
      assert ([o] + os)[|os|] == os[|os| - 1];
    }
  }

  /** What the whole session does with its prompts. */
  datatype Transcript = Transcript(outcomes: seq<TurnOutcome>, appended: seq<Message>, used: nat)

  /** The `while True` loop of `main` from prompt `from` on: one turn per
      prompt, each on the replies the earlier ones left, until the prompts
      run out or a turn ends the session. */
  function Play(inputs: seq<string>, from: nat, env: ImageEnv, replies: seq<Reply>, ctx: Ctx, hideThinking: bool): (p: Transcript)
    ensures p.used <= |replies|
    decreases |inputs| - from
  {
    if from >= |inputs| then Transcript([], [], 0)
    else
      var t := Turn(inputs[from], env, replies, ctx, hideThinking);
      if t.outcome.Ended? then Transcript([t.outcome], t.appended, t.used)
      else
        var rest := Play(inputs, from + 1, env, replies[t.used..], ctx, hideThinking);
        Transcript([t.outcome] + rest.outcomes, t.appended + rest.appended, t.used + rest.used)
  }

  /** One outcome for each of at most `n` prompts read, where only the last
      outcome can be `Ended`, and fewer outcomes than `n` means it is. */
  predicate StopsOnlyWhenEnded(outcomes: seq<TurnOutcome>, n: int) {
    && |outcomes| <= n
    && (forall j :: 0 <= j < |outcomes| - 1 ==> !outcomes[j].Ended?)
    && (|outcomes| < n ==> |outcomes| > 0 && outcomes[|outcomes| - 1].Ended?)
  }

  /** The step of `PlayStops`: a turn that does not end the session, put in
      front of the rest, keeps the shape. */
  lemma StopsAfterTurn(o: TurnOutcome, outcomes: seq<TurnOutcome>, n: int)
    requires !o.Ended? && StopsOnlyWhenEnded(outcomes, n)
    ensures StopsOnlyWhenEnded([o] + outcomes, n + 1)
  {
    var all := [o] + outcomes;
    forall j | 0 <= j < |all| - 1
      ensures !all[j].Ended?
    {
      if j > 0 {
        assert all[j] == outcomes[j - 1];
      }
    }
    if outcomes != [] {
      assert all[|all| - 1] == outcomes[|outcomes| - 1];
    }
  }

  /** The session gives one outcome per prompt read, and stops reading only
      after an outcome that ends it: only the last outcome can be `Ended`,
      and fewer outcomes than prompts means it is. */
  lemma {:induction false} PlayStops(inputs: seq<string>, from: nat, env: ImageEnv, replies: seq<Reply>, ctx: Ctx, hideThinking: bool)
    requires from <= |inputs|
    ensures StopsOnlyWhenEnded(Play(inputs, from, env, replies, ctx, hideThinking).outcomes, |inputs| - from)
    decreases |inputs| - from
  {
    if from < |inputs| {
      var t := Turn(inputs[from], env, replies, ctx, hideThinking);
      if t.outcome.Ended? {
        assert Play(inputs, from, env, replies, ctx, hideThinking).outcomes == [t.outcome];
      } else {
        var rest := Play(inputs, from + 1, env, replies[t.used..], ctx, hideThinking);
        assert Play(inputs, from, env, replies, ctx, hideThinking).outcomes == [t.outcome] + rest.outcomes;
        PlayStops(inputs, from + 1, env, replies[t.used..], ctx, hideThinking);
        StopsAfterTurn(t.outcome, rest.outcomes, |inputs| - from - 1);
      }
    }
  }

  /** A session started on a settled log keeps it linked throughout, and it
      is settled again at the end unless a turn ended the session. */
  lemma {:induction false} PlayLinked(log: seq<Message>, inputs: seq<string>, from: nat, env: ImageEnv, replies: seq<Reply>,
                                      ctx: Ctx, hideThinking: bool)
    requires Settled(log, ctx.offered)
    ensures Linked(log + Play(inputs, from, env, replies, ctx, hideThinking).appended, ctx.offered)
    ensures GoesOn(Play(inputs, from, env, replies, ctx, hideThinking).outcomes) ==>
      Settled(log + Play(inputs, from, env, replies, ctx, hideThinking).appended, ctx.offered)
    decreases |inputs| - from
  {
    if from >= |inputs| {
      assert log + [] == log;
    } else {
      var t := Turn(inputs[from], env, replies, ctx, hideThinking);
      TurnLinked(log, inputs[from], env, replies, ctx, hideThinking);
      if t.outcome.Ended? {
        assert Play(inputs, from, env, replies, ctx, hideThinking).appended == t.appended;
      } else {
        var rest := Play(inputs, from + 1, env, replies[t.used..], ctx, hideThinking);
        assert Play(inputs, from, env, replies, ctx, hideThinking) ==
          Transcript([t.outcome] + rest.outcomes, t.appended + rest.appended, t.used + rest.used);
        PlayLinked(log + t.appended, inputs, from + 1, env, replies[t.used..], ctx, hideThinking);
        LinkedAfterTurn(log, t.appended, rest.appended, t.outcome, rest.outcomes, ctx.offered);
      }
    }
  }

  /** Every request posted names the session's model and carries a settled
      log: the model never sees a tool call the client would run that has
      not been answered. */
  predicate RequestsSettled(sent: seq<Payload>, model: string, offered: bool) {
    forall i :: 0 <= i < |sent| ==>
      ReadPayload(sent[i]).Some? && ReadPayload(sent[i]).value.0 == model &&
      Settled(ReadPayload(sent[i]).value.1, offered)
  }

  /** A chat session: the registry, the settings of the command line, the
      log sent with every request, and the model's replies still to come. */
  class Session {
    const registry: ToolManager
    const model: string
    const cachePrompt: bool
    const hideThinking: bool
    const parseArgs: string -> Option<Args>
    const run: (Tool, Args) -> string
    const env: ImageEnv
    var messages: seq<Message>
    var replies: seq<Reply>
    /** The body of every request posted so far. */
    ghost var sent: seq<Payload>

    function Context(): Ctx
      reads registry
    {
      Ctx(|registry.specs| > 0, registry.tools, parseArgs, run)
    }

    /** Between turns the log is settled and so is every request sent. */
    ghost predicate Valid()
      reads this, registry
    {
      Settled(messages, |registry.specs| > 0) && RequestsSettled(sent, model, |registry.specs| > 0)
    }

    /** The start of `main` after the registry is built: the log holds the
        system prompt when one is given. */
    constructor (system: string, registry: ToolManager, model: string, cachePrompt: bool, hideThinking: bool,
                 parseArgs: string -> Option<Args>, run: (Tool, Args) -> string, env: ImageEnv,
                 replies: seq<Reply>)
      ensures this.registry == registry && this.model == model && this.cachePrompt == cachePrompt
      ensures this.hideThinking == hideThinking && this.parseArgs == parseArgs && this.run == run
      ensures this.env == env && this.replies == replies && sent == []
      ensures messages == (if system == "" then [] else [System(system)])
      ensures Valid()
    {
      this.registry := registry;
      this.model := model;
      this.cachePrompt := cachePrompt;
      this.hideThinking := hideThinking;
      this.parseArgs := parseArgs;
      this.run := run;
      this.env := env;
      this.replies := replies;
      sent := [];
      messages := if system == "" then [] else [System(system)];
      new;
      if system != "" {
        var offered := |registry.specs| > 0;
        assert messages[1..] == [];
        assert Step(Some([]), messages[0], offered) == Some([]);
        assert Replay(Some([]), messages, offered) == Replay(Some([]), [], offered);
      }
    }

    /** `call_llm`: posts the log and takes the next reply. */
    method CallLlm() returns (r: Option<Reply>)
      modifies this
      ensures messages == old(messages)
      ensures old(replies) == [] ==> r == None && replies == [] && sent == old(sent)
      ensures old(replies) != [] ==>
        r == Some(old(replies)[0]) && replies == old(replies)[1..] &&
        sent == old(sent) + [BuildPayload(model, messages, cachePrompt, registry.specs)]
    {
      if replies == [] {
        return None;
      }
      sent := sent + [BuildPayload(model, messages, cachePrompt, registry.specs)];
      r := Some(replies[0]);
      replies := replies[1..];
    }

    /** Posting a settled log keeps every request settled. */
    method Post() returns (r: Option<Reply>)
      requires RequestsSettled(sent, model, |registry.specs| > 0) && Settled(messages, |registry.specs| > 0)
      modifies this
      ensures messages == old(messages) && RequestsSettled(sent, model, |registry.specs| > 0)
      ensures old(replies) == [] ==> r == None && replies == []
      ensures old(replies) != [] ==> r == Some(old(replies)[0]) && replies == old(replies)[1..]
    {
      PayloadRoundTrip(model, messages, cachePrompt, registry.specs);
      r := CallLlm();
    }

    /** One round of tool calls: each call's result is appended as a tool
        message, in order, until a call fails. */
    method RunToolCalls(calls: seq<ToolCall>) returns (failure: Option<Failure>)
      modifies this
      ensures messages == old(messages) + Round(calls, Ctx(|registry.specs| > 0, registry.tools, parseArgs, run)).appended
      ensures failure == Round(calls, Ctx(|registry.specs| > 0, registry.tools, parseArgs, run)).failure
      ensures replies == old(replies) && sent == old(sent)
    {
      ghost var ctx := Ctx(|registry.specs| > 0, registry.tools, parseArgs, run);
      var done: seq<Message> := [];
      var i := 0;
      while i < |calls|
        invariant 0 <= i <= |calls|
        invariant messages == old(messages) + done
        invariant replies == old(replies) && sent == old(sent)
        invariant Round(calls[..i], ctx) == RoundResult(done, None)
      {
        var c := calls[i];
        var args := parseArgs(c.arguments);
        if args.None? {
          RoundFailsAt(calls, i, ctx);
          return Some(MalformedArguments(c.id));
        }
        var result := registry.RunTool(c.name, args.value, run);
        if result.Err? {
          RoundFailsAt(calls, i, ctx);
          return Some(ToolNotFound(result.error));
        }
        var m := ToolResult(c.id, c.name, result.value);
        RoundSnoc(calls, i, ctx);
        messages := messages + [m];
        done := done + [m];
        i := i + 1;
      }
      assert calls[..i] == calls;
      failure := None;
    }

    /** One pass of the tool-call loop from the assistant message `cur`:
        run its calls, then post the log again. `next` is the new assistant
        message when the loop goes on; otherwise `end` says why it stopped. */
    method ToolStep(cur: AssistantTurn) returns (next: Option<AssistantTurn>, end: TurnEnd, ghost step: seq<Message>)
      requires |registry.specs| > 0 && |cur.toolCalls| > 0
      requires RequestsSettled(sent, model, true)
      requires Replay(Some([]), messages, true) == Some(cur.toolCalls)
      modifies this
      ensures RequestsSettled(sent, model, true)
      ensures messages == old(messages) + step
      ensures next.Some? ==>
        old(replies) != [] && replies == old(replies)[1..] &&
        Replay(Some([]), messages, true) == Some(next.value.toolCalls) &&
        Continue(cur, old(replies), Context()) ==
          Exchange(step + Continue(next.value, replies, Context()).appended,
                   Continue(next.value, replies, Context()).outcome,
                   Continue(next.value, replies, Context()).used + 1)
      ensures next.None? ==>
        Continue(cur, old(replies), Context()).appended == step &&
        Continue(cur, old(replies), Context()).outcome == end &&
        replies == old(replies)[Continue(cur, old(replies), Context()).used..]
    {
      ghost var ctx := Context();
      ghost var round := Round(cur.toolCalls, ctx);
      RoundSettles(messages, cur, ctx);
      ContinueStops(cur, replies, ctx);
      var failure := RunToolCalls(cur.toolCalls);
      step := round.appended;
      next, end := None, Finished(cur);
      if failure.Some? {
        end := Failed(failure.value);
        return;
      }
      ghost var before := replies;
      var r := Post();
      if r.None? {
        end := Failed(OutOfReplies);
        return;
      }
      if r.value.TransportError? {
        end := Failed(RequestFailed);
        return;
      }
      var b := r.value.turn;
      ContinueStep(cur, before, ctx);
      AssistantPending(messages, b, true);
      messages := messages + [Assistant(b)];
      step := round.appended + [Assistant(b)];
      next := Some(b);
    }

    /** The tool-call loop of `main`, entered with the assistant message `a`
        just appended: while tools are offered and the assistant asks for
        calls, run them and post the log again. */
    method ToolLoop(a: AssistantTurn) returns (end: TurnEnd)
      requires RequestsSettled(sent, model, |registry.specs| > 0)
      requires Replay(Some([]), messages, |registry.specs| > 0) == Some(Pending(a, |registry.specs| > 0))
      modifies this
      ensures messages == old(messages) + Continue(a, old(replies), Context()).appended
      ensures replies == old(replies)[Continue(a, old(replies), Context()).used..]
      ensures end == Continue(a, old(replies), Context()).outcome
      ensures RequestsSettled(sent, model, |registry.specs| > 0)
    {
      ghost var ctx := Context();
      ghost var r0 := replies;
      ghost var x := Continue(a, r0, ctx);
      ghost var done: seq<Message> := [];
      var cur := a;
      while |registry.specs| > 0 && |cur.toolCalls| > 0
        invariant RequestsSettled(sent, model, ctx.offered)
        invariant messages == old(messages) + done
        invariant Replay(Some([]), messages, ctx.offered) == Some(Pending(cur, ctx.offered))
        invariant ExchangeResumes(x, Continue(cur, replies, ctx), done, r0, replies)
        decreases |replies|
      {
        ghost var before, y := replies, Continue(cur, replies, ctx);
        ghost var step;
        var next;
        next, end, step := ToolStep(cur);
        assert Context() == ctx;
        ConcatAssoc(old(messages), done, step);
        if next.None? {
          ExchangeDone(x, y, done, r0, before, step, end, replies);
          return;
        }
        ExchangeStep(x, y, done, r0, before, step, Continue(next.value, replies, ctx), replies);
        done := done + step;
        cur := next.value;
      }
      ContinueStops(cur, replies, ctx);
      ExchangeDone(x, Continue(cur, replies, ctx), done, r0, replies, [], Finished(cur), replies);
      return Finished(cur);
    }

    /** The user message `m` appended, the first request, then the tool-call
        loop. */
    method Converse(m: Message) returns (end: TurnEnd)
      requires Valid() && m.User?
      modifies this
      ensures messages == old(messages) + [m] + Dispatch(old(replies), Context()).appended
      ensures replies == old(replies)[Dispatch(old(replies), Context()).used..]
      ensures end == Dispatch(old(replies), Context()).outcome
      ensures RequestsSettled(sent, model, |registry.specs| > 0) && Linked(messages, |registry.specs| > 0)
      ensures end.Finished? ==> Valid()
    {
      ghost var ctx := Context();
      SettledAppendPrompt(messages, m, ctx.offered);
      messages := messages + [m];
      var r := Post();
      if r.None? || r.value.TransportError? {
        assert messages + [] == messages;
        return if r.None? then Failed(OutOfReplies) else Failed(RequestFailed);
      }
      var a := r.value.turn;
      ghost var prompt := messages;
      AssistantPending(messages, a, ctx.offered);
      messages := messages + [Assistant(a)];
      ghost var log, rest := messages, replies;
      end := ToolLoop(a);
      ghost var c := Continue(a, rest, ctx);
      ContinueLinked(log, a, rest, ctx);
      ConcatAssoc(prompt, [Assistant(a)], c.appended);
      assert Dispatch(old(replies), ctx) == Exchange([Assistant(a)] + c.appended, c.outcome, c.used + 1);
    }

    /** One prompt of the loop in `main`: build the user message, then
        converse; a prompt whose image is refused is dropped. */
    method UserTurn(input: string) returns (outcome: TurnOutcome)
      requires Valid()
      modifies this
      ensures messages == old(messages) + Turn(input, env, old(replies), Context(), hideThinking).appended
      ensures replies == old(replies)[Turn(input, env, old(replies), Context(), hideThinking).used..]
      ensures outcome == Turn(input, env, old(replies), Context(), hideThinking).outcome
      ensures RequestsSettled(sent, model, |registry.specs| > 0) && Linked(messages, |registry.specs| > 0)
      ensures !outcome.Ended? ==> Valid()
    {
      TurnCases(input, env, replies, Context(), hideThinking);
      var um := UserMessage(input, env);
      if um.Err? {
        outcome := if um.error.FetchFailed? then Ended(ImageFetchFailed(um.error.url)) else Skipped(um.error);
        assert replies[0..] == replies && messages + [] == messages;
        return;
      }
      ghost var before := messages;
      var end := Converse(um.value);
      ConcatAssoc(before, [um.value], Dispatch(old(replies), Context()).appended);
      outcome := Outcome(end, hideThinking);
    }

    /** Prompt `i` of the loop in `main`, seen from the session as a whole:
        if the session so far (`outcomes`, the log, the replies left) and `q`,
        the session from prompt `i` on, make up the whole session `p`, then
        after this turn the outcomes so far with `o` and `rest`, the session
        from prompt `i + 1` on the replies left (nothing once the session
        ends), make it up too. */
    method PlayTurn(inputs: seq<string>, i: nat, ghost p: Transcript, ghost q: Transcript,
                    ghost outcomes: seq<TurnOutcome>, ghost log0: seq<Message>, ghost r0: seq<Reply>)
      returns (o: TurnOutcome, ghost rest: Transcript)
      requires Valid() && i < |inputs| && q == Play(inputs, i, env, replies, Context(), hideThinking)
      requires Resumes(p, q, outcomes, log0, messages, r0, replies)
      modifies this
      ensures Resumes(p, rest, outcomes + [o], log0, messages, r0, replies)
      ensures o.Ended? ==> rest == Transcript([], [], 0)
      ensures !o.Ended? ==> rest == Play(inputs, i + 1, env, replies, Context(), hideThinking) && Valid()
      ensures RequestsSettled(sent, model, |registry.specs| > 0) && Linked(messages, |registry.specs| > 0)
    {
      ghost var t := Turn(inputs[i], env, replies, Context(), hideThinking);
      ghost var before, log := replies, messages;
      o := UserTurn(inputs[i]);
      if o.Ended? {
        rest := Transcript([], [], 0);
        assert [o] + rest.outcomes == [o] && t.appended + rest.appended == t.appended;
      } else {
        rest := Play(inputs, i + 1, env, replies, Context(), hideThinking);
      }
      ResumesStep(p, q, outcomes, log0, log, r0, before, o, t.appended, replies, rest);
    }

    /** The `while True` loop of `main` over the prompts: one turn per line,
        until the input ends (`EOFError`) or a turn ends the session. */
    method Run(inputs: seq<string>) returns (outcomes: seq<TurnOutcome>)
      requires Valid()
      modifies this
      ensures outcomes == Play(inputs, 0, env, old(replies), Context(), hideThinking).outcomes
      ensures messages == old(messages) + Play(inputs, 0, env, old(replies), Context(), hideThinking).appended
      ensures replies == old(replies)[Play(inputs, 0, env, old(replies), Context(), hideThinking).used..]
      ensures RequestsSettled(sent, model, |registry.specs| > 0) && Linked(messages, |registry.specs| > 0)
      ensures GoesOn(outcomes) ==> Valid()
    {
      ghost var p := Play(inputs, 0, env, replies, Context(), hideThinking);
      ghost var q := p;
      outcomes := [];
      var i := 0;
      while i < |inputs|
        invariant 0 <= i <= |inputs| && Valid()
        invariant q == Play(inputs, i, env, replies, Context(), hideThinking)
        invariant Resumes(p, q, outcomes, old(messages), messages, old(replies), replies)
      {
        var o;
        o, q := PlayTurn(inputs, i, p, q, outcomes, old(messages), old(replies));
        outcomes := outcomes + [o];
        if o.Ended? {
          ResumesDone(p, outcomes, old(messages), messages, old(replies), replies);
          return;
        }
        i := i + 1;
      }
      ResumesDone(p, outcomes, old(messages), messages, old(replies), replies);
    }
  }

  /** Part way through the tool-call loop: the messages so far, followed
      by the exchange `y` still to come, make up the whole exchange `x`,
      and the replies left are a suffix of the original ones. */
  ghost predicate ExchangeResumes(x: Exchange, y: Exchange, done: seq<Message>, r0: seq<Reply>, rs: seq<Reply>) {
    && x.appended == done + y.appended && x.outcome == y.outcome
    && |rs| <= |r0| && rs == r0[|r0| - |rs|..]
    && x.used == |r0| - |rs| + y.used
  }

  /** One pass of the tool-call loop taken off the front of the exchange. */
  lemma ExchangeStep(x: Exchange, y: Exchange, done: seq<Message>, r0: seq<Reply>, rs: seq<Reply>,
                     step: seq<Message>, y2: Exchange, rs2: seq<Reply>)
    requires ExchangeResumes(x, y, done, r0, rs)
    requires rs != [] && rs2 == rs[1..]
    requires y == Exchange(step + y2.appended, y2.outcome, y2.used + 1)
    ensures ExchangeResumes(x, y2, done + step, r0, rs2)
  {
    ConcatAssoc(done, step, y2.appended);
    assert r0[|r0| - |rs|..][1..] == r0[|r0| - |rs2|..];
  }

  /** The last pass of the tool-call loop: the messages so far are the whole
      exchange's and the replies left are those it did not use. */
  lemma ExchangeDone(x: Exchange, y: Exchange, done: seq<Message>, r0: seq<Reply>, rs: seq<Reply>,
                     step: seq<Message>, end: TurnEnd, rs2: seq<Reply>)
    requires ExchangeResumes(x, y, done, r0, rs)
    requires y.appended == step && y.outcome == end && y.used <= |rs| && rs2 == rs[y.used..]
    ensures x.appended == done + step && x.outcome == end && rs2 == r0[x.used..]
  {
    assert r0[|r0| - |rs|..][y.used..] == r0[x.used..];
  }

  /** Part way through a session: the outcomes and log so far, followed by
      the transcript `q` of the rest, make up the whole transcript `p`, and
      the replies left are a suffix of the original ones. */
  ghost predicate Resumes(p: Transcript, q: Transcript, outcomes: seq<TurnOutcome>, log0: seq<Message>,
                          log: seq<Message>, r0: seq<Reply>, rs: seq<Reply>) {
    && p.outcomes == outcomes + q.outcomes
    && log0 + p.appended == log + q.appended
    && |rs| <= |r0| && rs == r0[|r0| - |rs|..]
    && p.used == |r0| - |rs| + q.used
  }

  /** One turn taken off the front of the rest of the session. */
  lemma ResumesStep(p: Transcript, q: Transcript, outcomes: seq<TurnOutcome>, log0: seq<Message>, log: seq<Message>,
                    r0: seq<Reply>, rs: seq<Reply>, o: TurnOutcome, step: seq<Message>, rs2: seq<Reply>, q2: Transcript)
    requires Resumes(p, q, outcomes, log0, log, r0, rs)
    requires |rs2| <= |rs| && rs2 == rs[|rs| - |rs2|..]
    requires q == Transcript([o] + q2.outcomes, step + q2.appended, |rs| - |rs2| + q2.used)
    ensures Resumes(p, q2, outcomes + [o], log0, log + step, r0, rs2)
  {
    ConcatAssoc(outcomes, [o], q2.outcomes);
    ConcatAssoc(log, step, q2.appended);
    assert r0[|r0| - |rs|..][|rs| - |rs2|..] == r0[|r0| - |rs2|..];
  }

  /** Nothing of the session left: the outcomes and log are the whole transcript's. */
  lemma ResumesDone(p: Transcript, outcomes: seq<TurnOutcome>, log0: seq<Message>, log: seq<Message>,
                    r0: seq<Reply>, rs: seq<Reply>)
    requires Resumes(p, Transcript([], [], 0), outcomes, log0, log, r0, rs)
    ensures outcomes == p.outcomes && log == log0 + p.appended && rs == r0[p.used..]
  {
    assert outcomes + [] == outcomes && log + [] == log;
  }

  /** The registry built from the command-line flags and the discovered
      providers, and a session over it that names `model` in its requests. */
  method OpenSession(model: string, webAccess: bool, fileAccess: bool,
                     langsearchKey: Option<string>, system: string, cachePrompt: bool, hideThinking: bool,
                     parseArgs: string -> Option<Args>, run: (Tool, Args) -> string, env: ImageEnv,
                     replies: seq<Reply>) returns (s: Session)
    ensures fresh(s) && fresh(s.registry) && s.Valid() && s.model == model
    ensures s.registry.tools == Table(Registered(Discovered(langsearchKey), EnabledCategories(CliFlags(webAccess, fileAccess)).value))
    ensures s.registry.specs == SpecsOf(Registered(Discovered(langsearchKey), EnabledCategories(CliFlags(webAccess, fileAccess)).value))
    ensures s.messages == (if system == "" then [] else [System(system)]) && s.replies == replies
  {
    CliFlagsEnabled(webAccess, fileAccess);
    var registry := new ToolManager(CliFlags(webAccess, fileAccess), Discovered(langsearchKey));
    s := new Session(system, registry, model, cachePrompt, hideThinking, parseArgs, run, env, replies);
  }

  /** The start of `main` as written: resolve the model, build the registry
      from the command-line flags and the providers, and open the session
      with the `--model` argument, whatever was resolved. */
  method Launch(ids: seq<string>, requested: string, webAccess: bool, fileAccess: bool,
                langsearchKey: Option<string>, system: string, cachePrompt: bool, hideThinking: bool,
                parseArgs: string -> Option<Args>, run: (Tool, Args) -> string, env: ImageEnv,
                replies: seq<Reply>) returns (r: Result<Session, ModelError>)
    ensures r.Err? <==> ModelChoice(ids, requested).Err?
    ensures r.Err? ==> r.error == ModelChoice(ids, requested).error
    ensures r.Ok? ==>
      fresh(r.value) && fresh(r.value.registry) && r.value.Valid() &&
      r.value.model == SentModelAsWritten(requested, ModelChoice(ids, requested).value) &&
      r.value.registry.tools == Table(Registered(Discovered(langsearchKey), EnabledCategories(CliFlags(webAccess, fileAccess)).value)) &&
      r.value.registry.specs == SpecsOf(Registered(Discovered(langsearchKey), EnabledCategories(CliFlags(webAccess, fileAccess)).value)) &&
      r.value.messages == (if system == "" then [] else [System(system)]) &&
      r.value.replies == replies
  {
    var name := GetModelName(ids, requested);
    if name.Err? {
      return Err(name.error);
    }
    var session := OpenSession(SentModelAsWritten(requested, name.value), webAccess, fileAccess, langsearchKey,
                               system, cachePrompt, hideThinking, parseArgs, run, env, replies);
    return Ok(session);
  }

  /** The start of `main` as intended: the same, except that the session
      names the resolved model (the one announced as "Using model") in its
      requests, so every request names a model the server lists. */
  method LaunchCorrected(ids: seq<string>, requested: string, webAccess: bool, fileAccess: bool,
                         langsearchKey: Option<string>, system: string, cachePrompt: bool, hideThinking: bool,
                         parseArgs: string -> Option<Args>, run: (Tool, Args) -> string, env: ImageEnv,
                         replies: seq<Reply>) returns (r: Result<Session, ModelError>)
    ensures r.Err? <==> ModelChoice(ids, requested).Err?
    ensures r.Err? ==> r.error == ModelChoice(ids, requested).error
    ensures r.Ok? ==>
      fresh(r.value) && fresh(r.value.registry) && r.value.Valid() &&
      r.value.model == SentModel(requested, ModelChoice(ids, requested).value) &&
      r.value.model in ids && (requested != "" ==> r.value.model == requested) &&
      r.value.registry.tools == Table(Registered(Discovered(langsearchKey), EnabledCategories(CliFlags(webAccess, fileAccess)).value)) &&
      r.value.registry.specs == SpecsOf(Registered(Discovered(langsearchKey), EnabledCategories(CliFlags(webAccess, fileAccess)).value)) &&
      r.value.messages == (if system == "" then [] else [System(system)]) &&
      r.value.replies == replies
  {
    var name := GetModelName(ids, requested);
    if name.Err? {
      return Err(name.error);
    }
    SentModelListed(ids, requested);
    var session := OpenSession(SentModel(requested, name.value), webAccess, fileAccess, langsearchKey,
                               system, cachePrompt, hideThinking, parseArgs, run, env, replies);
    return Ok(session);
  }
}

=== FILE: client.dfy ===
/**
 * The client side of the HTTP API: the body of a `/chat/completions`
 * request, the choice of model from the `/models` listing, and the tool
 * flags the command line hands to the registry.
 *
 * The HTTP calls themselves are not modelled: the `/models` listing is the
 * sequence of model ids it returned.
 */
module Client {
  import opened Wrappers
  import opened Messages
  import opened Tools

  /** A value of the JSON request body. */
  datatype PayloadValue =
    | PStr(s: string)
    | PBool(b: bool)
    | PMessages(msgs: seq<Message>)
    | PSpecs(specs: seq<ToolSpec>)

  /** The JSON object posted to `/chat/completions`. */
  type Payload = map<string, PayloadValue>

  /** `json_payload` as `call_llm` builds it: model, messages and `stream:
      false` always; `cache_prompt: true` only when asked for; `tools` and
      `tool_choice: "auto"` only when the registry has specifications. */
  function BuildPayload(model: string, messages: seq<Message>, cachePrompt: bool, specs: seq<ToolSpec>): (p: Payload)
    ensures p.Keys == {"model", "messages", "stream"}
                      + (if cachePrompt then {"cache_prompt"} else {})
                      + (if |specs| > 0 then {"tools", "tool_choice"} else {})
    ensures p["stream"] == PBool(false)
    ensures "tool_choice" in p ==> p["tool_choice"] == PStr("auto")
  {
    var base := map["model" := PStr(model), "messages" := PMessages(messages), "stream" := PBool(false)];
    var cached := if cachePrompt then base["cache_prompt" := PBool(true)] else base;
    if |specs| > 0 then cached["tools" := PSpecs(specs)]["tool_choice" := PStr("auto")] else cached
  }

  /** What a server reads out of a request body: the model, the log, whether
      prompt caching was requested and the tools offered (none when the key
      is absent). */
  function ReadPayload(p: Payload): Option<(string, seq<Message>, bool, seq<ToolSpec>)> {
    if "model" in p && p["model"].PStr? && "messages" in p && p["messages"].PMessages? then
      var cache := "cache_prompt" in p && p["cache_prompt"] == PBool(true);
      var specs := if "tools" in p && p["tools"].PSpecs? then p["tools"].specs else [];
      Some((p["model"].s, p["messages"].msgs, cache, specs))
    else None
  }

  /** The request body carries everything `call_llm` was given: reading it
      back yields the model, the whole log, the caching flag and exactly the
      registry's specifications. */
  lemma PayloadRoundTrip(model: string, messages: seq<Message>, cachePrompt: bool, specs: seq<ToolSpec>)
    ensures ReadPayload(BuildPayload(model, messages, cachePrompt, specs)) == Some((model, messages, cachePrompt, specs))
  {
    var p := BuildPayload(model, messages, cachePrompt, specs);
    assert p["model"] == PStr(model) && p["messages"] == PMessages(messages);
    assert cachePrompt ==> p["cache_prompt"] == PBool(true);
    assert |specs| > 0 ==> p["tools"] == PSpecs(specs);
  }

  /** Tools are offered, and a tool choice is requested, exactly when the
      registry has specifications; an empty registry sends a plain chat
      request. */
  lemma ToolsOfferedIffSpecs(model: string, messages: seq<Message>, cachePrompt: bool, specs: seq<ToolSpec>)
    ensures "tools" in BuildPayload(model, messages, cachePrompt, specs) <==> |specs| > 0
    ensures "tool_choice" in BuildPayload(model, messages, cachePrompt, specs) <==> |specs| > 0
    ensures "cache_prompt" in BuildPayload(model, messages, cachePrompt, specs) <==> cachePrompt
  {
  }

  /** Why `get_model_name` gives no model: the listing is empty (indexing
      `data[0]` raises `IndexError`), or the requested id is not listed. */
  datatype ModelError = NoModels | NotFound(model: string)

  /** The model `get_model_name` settles on, given the listed ids: the first
      one when no model was requested, otherwise the requested one if listed. */
  function ModelChoice(ids: seq<string>, requested: string): (r: Result<string, ModelError>)
    ensures r.Ok? ==> r.value in ids
    ensures r.Err? ==> r.error == (if requested == "" then NoModels else NotFound(requested))
    ensures requested == "" ==> (r.Ok? <==> |ids| > 0)
    ensures requested != "" ==> (r.Ok? <==> requested in ids)
  {
    if requested == "" then
      if |ids| == 0 then Err(NoModels) else Ok(ids[0])
    else if requested in ids then Ok(requested)
    else Err(NotFound(requested))
  }

  /** A named model is used exactly when the server lists it, and then it is
      used as named. */
  lemma NamedModelChoice(ids: seq<string>, requested: string)
    requires requested != ""
    ensures ModelChoice(ids, requested).Ok? <==> requested in ids
    ensures ModelChoice(ids, requested).Ok? ==> ModelChoice(ids, requested).value == requested
  {
  }

  /** Without a request the server's first model is taken, and only an empty
      listing fails. */
  lemma DefaultModelChoice(ids: seq<string>)
    ensures ModelChoice(ids, "").Ok? <==> |ids| > 0
    ensures |ids| > 0 ==> ModelChoice(ids, "").value == ids[0]
  {
  }

  /** `get_model_name`: scans the listing for the requested id. */
  method GetModelName(ids: seq<string>, requested: string) returns (r: Result<string, ModelError>)
    ensures r == ModelChoice(ids, requested)
  {
    if requested == "" {
      if |ids| == 0 {
        return Err(NoModels);
      }
      return Ok(ids[0]);
    }
    var i := 0;
    while i < |ids|
      invariant 0 <= i <= |ids|
      invariant requested !in ids[..i]
    {
      if ids[i] == requested {
        return Ok(ids[i]);
      }
      i := i + 1;
    }
    assert ids[..i] == ids;
    return Err(NotFound(requested));
  }

  /** The model named in every request of a session, as written: the
      `--model` argument, whatever `get_model_name` resolved. */
  function SentModelAsWritten(requested: string, resolved: string): string {
    requested
  }

  /** With no `--model` and a server listing `m`, the resolved model is `m`,
      yet the requests name the empty model, which the server does not list. */
  lemma EmptyModelSentAsWritten()
    ensures ModelChoice(["m"], "") == Ok("m")
    ensures SentModelAsWritten("", ModelChoice(["m"], "").value) == ""
    ensures SentModelAsWritten("", ModelChoice(["m"], "").value) !in ["m"]
  {
  }

  /** The model named in every request of a session: the one `get_model_name`
      resolved (and announced as "Using model"). */
  function SentModel(requested: string, resolved: string): string {
    resolved
  }

  /** Every request names a model that the server listed, and the model asked
      for when one was named. */
  lemma SentModelListed(ids: seq<string>, requested: string)
    requires ModelChoice(ids, requested).Ok?
    ensures SentModel(requested, ModelChoice(ids, requested).value) in ids
    ensures requested != "" ==> SentModel(requested, ModelChoice(ids, requested).value) == requested
  {
  }

  /** The registry flags built from the command line: each `--tools_<name>`
      argument with its prefix removed; `basic` is always on. */
  function CliFlags(webAccess: bool, fileAccess: bool): (f: map<string, bool>)
    ensures forall k :: k in f ==> ParseToolType(k).Some?
    ensures forall t :: TypeValue(t) in f
    ensures f[TypeValue(Basic)]
  {
    map["web_access" := webAccess, "file_access" := fileAccess, "basic" := true]
  }

  /** The command line can only name real categories, so building the
      registry never fails on its flags; basic tools are always enabled and
      the others exactly when their flag is given. */
  lemma CliFlagsEnabled(webAccess: bool, fileAccess: bool)
    ensures EnabledCategories(CliFlags(webAccess, fileAccess)).Ok?
    ensures EnabledCategories(CliFlags(webAccess, fileAccess)).value ==
      {Basic} + (if webAccess then {WebAccess} else {}) + (if fileAccess then {FileAccess} else {})
  {
    var flags := CliFlags(webAccess, fileAccess);
    var e := EnabledCategories(flags).value;
    var want := {Basic} + (if webAccess then {WebAccess} else {}) + (if fileAccess then {FileAccess} else {});
    forall t ensures t in e <==> t in want {
      assert TypeValue(t) in flags;
    }
  }
}

=== FILE: image.dfy ===
/**
 * `parse_image`: the `<text>@image:<path-or-url>` attachment syntax. The
 * input is split on the literal tag, the two halves are stripped, the MIME
 * type guessed from the path must be an image type, the image is downloaded
 * or read, and its base64 encoding (section 4 of RFC 4648) is wrapped in a
 * `data:` URL (RFC 2397).
 *
 * The MIME guess, the download, the file-system calls and the base64 encoder
 * are library or I/O routines; `ImageEnv` carries them as functions.
 */
module ImageTag {
  import opened Wrappers
  import opened Text

  const Tag := "@image:"
  const ImagePrefix := "image/"
  const Base64Marker := ";base64,"

  newtype byte = x: int | 0 <= x < 256

  /** What `requests.get(url)` followed by `raise_for_status()` gives: the
      body, a `RequestException` that is also a `ValueError` (the URL is
      malformed: `InvalidURL`, `MissingSchema`, `InvalidSchema`, …), or any
      other `RequestException` (connection error, non-2xx status). */
  datatype Download = Downloaded(blob: seq<byte>) | RejectedUrl | RequestFailure

  /** The library and I/O routines `parse_image` calls. */
  datatype ImageEnv = ImageEnv(
    guessType: string -> Option<string>,    // mimetypes.guess_type(path)[0]
    fetch: string -> Download,              // requests.get(url), raise_for_status(), .content
    pathExists: string -> bool,             // os.path.exists(path)
    read: string -> seq<byte>,              // open(path, "rb").read()
    base64: seq<byte> -> string)            // base64.b64encode(blob).decode("utf-8")

  datatype ImageError =
    | NoTag                                 // IndexError: the input has no tag at all
    | TagNotAtEnd                           // ValueError: the tag occurs more than once
    | UnsupportedType(mime: Option<string>) // ValueError: no MIME type, or not an image type
    | FileNotFound(path: string)            // ValueError: a local path that does not exist
    | BadUrl(url: string)                   // a RequestException that is also a ValueError: a malformed URL
    | FetchFailed(url: string)              // any other RequestException while downloading

  /** The errors raised as `ValueError`, which the session reports before
      reading the next prompt; the others are not caught there. */
  predicate IsValueError(e: ImageError) {
    e.TagNotAtEnd? || e.UnsupportedType? || e.FileNotFound? || e.BadUrl?
  }

  /** `user_input.split("@image:")` and the check on it, then the stripped
      text prompt and image path. With no tag, `parts[1]` raises `IndexError`. */
  function SplitTag(input: string): (r: Result<(string, string), ImageError>)
    ensures r == Err(NoTag) <==> !Contains(input, Tag)
    ensures r.Ok? <==> Contains(input, Tag) && !Contains(SplitOnce(input, Tag).1, Tag)
    ensures r.Ok? ==> r.value == (Strip(SplitOnce(input, Tag).0), Strip(SplitOnce(input, Tag).1))
    ensures Contains(input, Tag) && r.Err? ==> r.error == TagNotAtEnd
  {
    var parts := Split(input, Tag);
    SplitFirst(input, Tag);
    if |parts| == 1 then Err(NoTag)
    else if |parts| > 2 || !EndsWith(input, parts[1]) then Err(TagNotAtEnd)
    else Ok((Strip(parts[0]), Strip(parts[1])))
  }

  /** The `endswith(parts[1])` test never rejects anything: when the input
      has exactly one tag it always ends with the text after the tag, so only
      the count of tags decides. */
  lemma EndsWithTestIsRedundant(input: string)
    requires |Split(input, Tag)| == 2
    ensures EndsWith(input, Split(input, Tag)[1])
  {
    TwoParts(input, Tag);
  }

  /** The guessed MIME type, when it is an image type. */
  function ImageMime(path: string, env: ImageEnv): (r: Result<string, ImageError>)
    ensures r.Ok? <==> env.guessType(path).Some? && StartsWith(env.guessType(path).value, ImagePrefix)
    ensures r.Ok? ==> r.value == env.guessType(path).value
    ensures r.Err? ==> r.error == UnsupportedType(env.guessType(path))
  {
    var mime := env.guessType(path);
    if mime.None? || mime.value == "" || !StartsWith(mime.value, ImagePrefix) then Err(UnsupportedType(mime))
    else Ok(mime.value)
  }

  /** The image bytes: downloaded for an `http://` or `https://` path, read
      from the file system otherwise. */
  function LoadImage(path: string, env: ImageEnv): (r: Result<seq<byte>, ImageError>)
    ensures StartsWith(path, "http://") || StartsWith(path, "https://") ==>
      (r.Ok? <==> env.fetch(path).Downloaded?) &&
      (r.Err? ==> r.error == if env.fetch(path).RejectedUrl? then BadUrl(path) else FetchFailed(path))
    ensures !(StartsWith(path, "http://") || StartsWith(path, "https://")) ==>
      (r.Ok? <==> env.pathExists(path)) && (r.Err? ==> r.error == FileNotFound(path))
    ensures r.Err? ==> r.error in {BadUrl(path), FetchFailed(path), FileNotFound(path)}
  {
    if StartsWith(path, "http://") || StartsWith(path, "https://") then
      match env.fetch(path)
      case Downloaded(blob) => Ok(blob)
      case RejectedUrl => Err(BadUrl(path))
      case RequestFailure => Err(FetchFailed(path))
    else if !env.pathExists(path) then Err(FileNotFound(path))
    else Ok(env.read(path))
  }

  /** Unfolds `LoadImage` on success: the bytes loaded are the body of the
      download, or the contents of the file. */
  lemma LoadedBytes(path: string, env: ImageEnv)
    requires LoadImage(path, env).Ok?
    ensures StartsWith(path, "http://") || StartsWith(path, "https://") ==>
      env.fetch(path) == Downloaded(LoadImage(path, env).value)
    ensures !(StartsWith(path, "http://") || StartsWith(path, "https://")) ==>
      env.pathExists(path) && LoadImage(path, env).value == env.read(path)
  {
  }

  /** `f"data:{mime_type};base64,{encoded_image}"`. */
  function DataUrl(mime: string, encoded: string): (u: string)
    ensures StartsWith(u, "data:") && EndsWith(u, encoded)
    ensures |u| == 5 + |mime| + |Base64Marker| + |encoded|
  {
    "data:" + mime + Base64Marker + encoded
  }

  /** Reads a base64 `data:` URL back into its media type and payload. */
  function ParseDataUrl(url: string): (r: Option<(string, string)>)
    ensures r.Some? ==> url == DataUrl(r.value.0, r.value.1)
  {
    if !StartsWith(url, "data:") then None
    else
      var rest := url[5..];
      if !Contains(rest, Base64Marker) then None
      else
        var (mime, encoded) := SplitOnce(rest, Base64Marker);
        DataUrlOfPieces(url, mime, encoded);
        Some((mime, encoded))
  }

  /** A URL that is `data:` followed by the media type, the base64 marker and
      the payload is their data URL. */
  lemma DataUrlOfPieces(url: string, mime: string, encoded: string)
    requires |url| >= 5 && url[..5] == "data:" && url[5..] == mime + Base64Marker + encoded
    ensures url == DataUrl(mime, encoded)
  {
    assert url == url[..5] + url[5..];
  }

  /** Round trip: the data URL gives back the media type and the payload
      whenever the media type has no `;`, as every guessed type. */
  lemma DataUrlRoundTrip(mime: string, encoded: string)
    requires NoSemicolon(mime)
    ensures ParseDataUrl(DataUrl(mime, encoded)) == Some((mime, encoded))
  {
    var url := DataUrl(mime, encoded);
    assert url[..5] == "data:";
    assert url[5..] == mime + Base64Marker + encoded;
    NoHeadNoOccurrence(mime, Base64Marker);
    FirstOccurrence(mime, Base64Marker, encoded);
  }

  predicate NoSemicolon(mime: string) {
    forall k :: 0 <= k < |mime| ==> mime[k] != ';'
  }

  /** The second half of `parse_image`, once the input is split: check the
      guessed type, load the image, and pair the text with its data URL. */
  function Attach(text: string, path: string, env: ImageEnv): (r: Result<(string, string), ImageError>)
    ensures ImageMime(path, env).Err? ==> r == Err(UnsupportedType(env.guessType(path)))
    ensures ImageMime(path, env).Ok? ==> r.Ok? == LoadImage(path, env).Ok?
    ensures ImageMime(path, env).Ok? && LoadImage(path, env).Err? ==> r == Err(LoadImage(path, env).error)
    ensures r.Err? ==> r.error != NoTag
    ensures r.Ok? ==> r.value.0 == text && ImageMime(path, env).Ok? && LoadImage(path, env).Ok?
  {
    match ImageMime(path, env)
    case Err(e) => Err(e)
    case Ok(mime) =>
      match LoadImage(path, env)
      case Err(e) => Err(e)
      case Ok(blob) => Ok((text, DataUrl(mime, env.base64(blob))))
  }

  /** `parse_image(user_input)`: the text prompt and the image URL. */
  function ParseImage(input: string, env: ImageEnv): (r: Result<(string, string), ImageError>)
    ensures SplitTag(input).Err? ==> r == Err(SplitTag(input).error)
    ensures r == Err(NoTag) <==> !Contains(input, Tag)
    ensures SplitTag(input).Ok? && ImageMime(SplitTag(input).value.1, env).Err? ==>
      r == Err(UnsupportedType(env.guessType(SplitTag(input).value.1)))
    ensures SplitTag(input).Ok? && ImageMime(SplitTag(input).value.1, env).Ok? &&
            LoadImage(SplitTag(input).value.1, env).Err? ==>
      r == Err(LoadImage(SplitTag(input).value.1, env).error)
    ensures r.Ok? ==>
      && SplitTag(input).Ok? && r.value.0 == SplitTag(input).value.0
      && ImageMime(SplitTag(input).value.1, env).Ok? && LoadImage(SplitTag(input).value.1, env).Ok?
  {
    match SplitTag(input)
    case Err(e) => Err(e)
    case Ok((text, path)) => Attach(text, path, env)
  }

  /** The URL `parse_image` returns is a base64 data URL of the guessed
      media type, from which the media type and the encoded bytes of the
      loaded image can be read back. */
  lemma ImageUrlRoundTrip(input: string, env: ImageEnv)
    requires ParseImage(input, env).Ok?
    ensures var path := SplitTag(input).value.1;
      var mime := env.guessType(path).value;
      && StartsWith(ParseImage(input, env).value.1, "data:" + mime + Base64Marker)
      && (NoSemicolon(mime) ==> ParseDataUrl(ParseImage(input, env).value.1) == Some((mime, env.base64(LoadImage(path, env).value))))
  {
    var path := SplitTag(input).value.1;
    var mime := env.guessType(path).value;
    var encoded := env.base64(LoadImage(path, env).value);
    var url := ParseImage(input, env).value.1;
    assert url == DataUrl(mime, encoded);
    assert url[..|"data:" + mime + Base64Marker|] == "data:" + mime + Base64Marker;
    if NoSemicolon(mime) {
      DataUrlRoundTrip(mime, encoded);
    }
  }

  /** The MIME check comes before any download or file access: when it
      fails, what the network and the file system would do makes no difference. */
  lemma MimeCheckedBeforeLoad(input: string, env: ImageEnv, fetch: string -> Download,
                              pathExists: string -> bool, read: string -> seq<byte>)
    requires SplitTag(input).Ok? && ImageMime(SplitTag(input).value.1, env).Err?
    ensures ParseImage(input, env) == ParseImage(input, env.(fetch := fetch, pathExists := pathExists, read := read))
    ensures ParseImage(input, env).Err? && ParseImage(input, env).error.UnsupportedType?
  {
  }

  /** With one tag between two tag-free pieces, the prompt and the path are
      the stripped pieces. */
  lemma SplitTagOf(text: string, path: string)
    requires !Contains(text, Tag) && !Contains(path, Tag)
    ensures SplitTag(text + Tag + path) == Ok((Strip(text), Strip(path)))
  {
    FirstOccurrence(text, Tag, path);
  }

  /** A prompt with one tag whose path names an image that can be loaded
      becomes the stripped text and the data URL of the loaded bytes. */
  lemma ParseImageOf(text: string, path: string, env: ImageEnv)
    requires !Contains(text, Tag) && !Contains(path, Tag)
    requires ImageMime(Strip(path), env).Ok? && LoadImage(Strip(path), env).Ok?
    ensures ParseImage(text + Tag + path, env) ==
      Ok((Strip(text), DataUrl(env.guessType(Strip(path)).value, env.base64(LoadImage(Strip(path), env).value))))
  {
    SplitTagOf(text, path);
  }

  /** A prompt with one tag whose path has no image type is refused before
      anything is downloaded or read. */
  lemma NonImageRefused(text: string, path: string, env: ImageEnv)
    requires !Contains(text, Tag) && !Contains(path, Tag)
    requires env.guessType(Strip(path)).Some? && !StartsWith(env.guessType(Strip(path)).value, ImagePrefix)
    ensures ParseImage(text + Tag + path, env) == Err(UnsupportedType(env.guessType(Strip(path))))
  {
    SplitTagOf(text, path);
  }
}

=== FILE: messages.dfy ===
/**
 * The conversation log exchanged with the remote model, and the rule that
 * ties tool-role messages to the tool calls that asked for them.
 */
module Messages {
  import opened Wrappers

  /** A value of a decoded tool-call argument object. */
  datatype JsonValue = JNull | JBool(b: bool) | JNumber(n: int) | JString(s: string)

  /** Keyword arguments for a tool's `run`, as `json.loads` yields them. */
  type Args = map<string, JsonValue>

  /** One entry of an assistant message's `tool_calls`: the call's `id` and
      the `function`'s `name` and JSON-encoded `arguments`. */
  datatype ToolCall = ToolCall(id: string, name: string, arguments: string)

  /** An assistant message: `content`, the optional `reasoning_content`, and
      `tool_calls` (an empty sequence when the key is absent or empty, the
      cases where `.get("tool_calls")` is falsy). */
  datatype AssistantTurn = AssistantTurn(content: string, reasoning: Option<string>, toolCalls: seq<ToolCall>)

  /** One part of a multimodal user message. */
  datatype ContentPart = TextPart(text: string) | ImageUrlPart(url: string)

  /** A user message's `content`: a plain string or a list of parts. */
  datatype UserContent = Plain(text: string) | Multimodal(parts: seq<ContentPart>)

  datatype Message =
    | System(content: string)
    | User(userContent: UserContent)
    | Assistant(turn: AssistantTurn)
    | ToolResult(toolCallId: string, name: string, result: string)

  /** The calls an assistant message leaves waiting for results: its
      `tool_calls` when tools were offered to the model, none otherwise (the
      client dispatches nothing when it offered no tools). */
  function Pending(a: AssistantTurn, toolsOffered: bool): seq<ToolCall> {
    if toolsOffered then a.toolCalls else []
  }

  /** Reading one message, given the calls still waiting (None once the log
      broke the rule): a tool message must answer the first waiting call,
      by id and name; any other message may only come when nothing is waiting. */
  function Step(waiting: Option<seq<ToolCall>>, m: Message, toolsOffered: bool): Option<seq<ToolCall>> {
    match waiting
    case None => None
    case Some(calls) =>
      match m
      case ToolResult(id, name, _) =>
        if |calls| > 0 && calls[0].id == id && calls[0].name == name then Some(calls[1..]) else None
      case Assistant(a) => if calls == [] then Some(Pending(a, toolsOffered)) else None
      case _ => if calls == [] then Some([]) else None
  }

  /** Reads a log from the front. */
  function Replay(waiting: Option<seq<ToolCall>>, log: seq<Message>, toolsOffered: bool): Option<seq<ToolCall>>
    decreases |log|
  {
    if log == [] then waiting else Replay(Step(waiting, log[0], toolsOffered), log[1..], toolsOffered)
  }

  /** Every tool message in `log` answers a call of the assistant message
      before it, in the order of that message's `tool_calls`. */
  predicate Linked(log: seq<Message>, toolsOffered: bool) {
    Replay(Some([]), log, toolsOffered).Some?
  }

  /** Linked, and every call the log asked for has been answered. */
  predicate Settled(log: seq<Message>, toolsOffered: bool) {
    Replay(Some([]), log, toolsOffered) == Some([])
  }

  /** Reading a concatenation is reading one part after the other. */
  lemma {:induction false} ReplayAppend(w: Option<seq<ToolCall>>, a: seq<Message>, b: seq<Message>, toolsOffered: bool)
    ensures Replay(w, a + b, toolsOffered) == Replay(Replay(w, a, toolsOffered), b, toolsOffered)
    decreases |a|
  {
    if a == [] {
      assert a + b == b;
    } else {
      assert (a + b)[0] == a[0] && (a + b)[1..] == a[1..] + b;
      ReplayAppend(Step(w, a[0], toolsOffered), a[1..], b, toolsOffered);
    }
  }

  /** Tool messages that answer the first `|results|` waiting calls, by id
      and name and in order, leave the rest of the calls waiting. */
  lemma {:induction false} ReplayAnswers(calls: seq<ToolCall>, results: seq<Message>, toolsOffered: bool)
    requires |results| <= |calls|
    requires forall j :: 0 <= j < |results| ==>
      results[j].ToolResult? && results[j].toolCallId == calls[j].id && results[j].name == calls[j].name
    ensures Replay(Some(calls), results, toolsOffered) == Some(calls[|results|..])
    decreases |results|
  {
    if results != [] {
      ReplayAnswers(calls[1..], results[1..], toolsOffered);
      assert calls[1..][|results| - 1..] == calls[|results|..];
    }
  }

  /** A settled log stays settled when a system or user message is appended. */
  lemma SettledAppendPrompt(log: seq<Message>, m: Message, toolsOffered: bool)
    requires Settled(log, toolsOffered) && (m.System? || m.User?)
    ensures Settled(log + [m], toolsOffered)
  {
    ReplayAppend(Some([]), log, [m], toolsOffered);
  }
}

=== FILE: presenter.dfy ===
/**
 * The pure front half of `print_response`: splitting a finished assistant
 * message into a reasoning segment and an answer segment. Rendering is not
 * modelled.
 */
module Presenter {
  import opened Wrappers
  import opened Text
  import opened Messages

  const AnswerTag := "<answer>"
  const EndTag := "<|end|>"

  /** What is shown: the reasoning text ("" when there is none) and the answer. */
  datatype Display = Display(thinking: string, answer: string)

  /** True when the message carries an explicit, non-empty reasoning channel. */
  predicate HasReasoning(a: AssistantTurn) {
    a.reasoning.Some? && a.reasoning.value != ""
  }

  /** The inline marker used when there is no reasoning channel: `<answer>`
      whenever it occurs, else `<|end|>` whenever it occurs, else none. */
  function AnswerMarker(content: string): (m: Option<string>)
    ensures m.Some? ==> Contains(content, m.value)
    ensures m == None <==> !Contains(content, AnswerTag) && !Contains(content, EndTag)
    ensures Contains(content, AnswerTag) ==> m == Some(AnswerTag)
    ensures !Contains(content, AnswerTag) && Contains(content, EndTag) ==> m == Some(EndTag)
  {
    if Contains(content, AnswerTag) then Some(AnswerTag)
    else if Contains(content, EndTag) then Some(EndTag)
    else None
  }

  /** The reasoning / answer split that `print_response` renders. */
  function SplitResponse(a: AssistantTurn): (d: Display)
    ensures HasReasoning(a) ==> d == Display(a.reasoning.value, a.content)
    ensures !HasReasoning(a) && AnswerMarker(a.content).None? ==> d == Display("", a.content)
    ensures !HasReasoning(a) && AnswerMarker(a.content).Some? ==>
      Trimmed(d.thinking) && Trimmed(d.answer) && !Contains(d.thinking, AnswerMarker(a.content).value)
  {
    if HasReasoning(a) then Display(a.reasoning.value, a.content)
    else match AnswerMarker(a.content)
      case None => Display("", a.content)
      case Some(marker) => MarkerSplit(a.content, marker)
  }

  /** `content.split(marker, 1)` with both pieces stripped: the thinking is
      the text before the first occurrence of the marker, the answer the text
      after it. */
  function MarkerSplit(content: string, marker: string): (d: Display)
    requires |marker| > 0 && Contains(content, marker)
    ensures Trimmed(d.thinking) && Trimmed(d.answer) && !Contains(d.thinking, marker)
    ensures var i := Find(content, marker).value;
      d == Display(Strip(content[..i]), Strip(content[i + |marker|..]))
  {
    var i := Find(content, marker).value;
    var before, after := content[..i], content[i + |marker|..];
    assert SplitOnce(content, marker) == (before, after);
    StrippedPieces(before, after, marker);
    Display(Strip(before), Strip(after))
  }

  /** Both stripped pieces are trimmed, and stripping the text before the
      first marker cannot bring a marker into it. */
  lemma StrippedPieces(before: string, after: string, marker: string)
    requires !Contains(before, marker)
    ensures Trimmed(Strip(before)) && Trimmed(Strip(after)) && !Contains(Strip(before), marker)
  {
    StripTrimmed(before);
    StripTrimmed(after);
    StripKeepsOut(before, marker);
  }

  /** Whether the reasoning text is printed: only when it is non-empty and
      thinking is not hidden. */
  function ShownThinking(d: Display, hideThinking: bool): (r: Option<string>)
    ensures r.Some? <==> !hideThinking && d.thinking != ""
    ensures r.Some? ==> r.value == d.thinking
  {
    if !hideThinking && d.thinking != "" then Some(d.thinking) else None
  }

  /** An explicit reasoning channel wins over any inline marker. */
  lemma ReasoningIgnoresMarkers(r: string, content: string, calls: seq<ToolCall>)
    requires r != ""
    ensures SplitResponse(AssistantTurn(content, Some(r), calls)) == Display(r, content)
  {
  }

  /** A message written as `pre<answer>post`, with no `<answer>` in `pre`,
      shows `pre` stripped as thinking and `post` stripped as answer. */
  lemma AnswerTagSplit(pre: string, post: string, calls: seq<ToolCall>)
    requires !Contains(pre, AnswerTag)
    ensures SplitResponse(AssistantTurn(pre + AnswerTag + post, None, calls)) == Display(Strip(pre), Strip(post))
  {
    MarkersHeadUnique();
    FirstOccurrence(pre, AnswerTag, post);
    MarkerRoundTrip(pre, AnswerTag, post, calls);
  }

  /** The same split at the `<|end|>` marker, which is used only when the
      whole message has no `<answer>`. */
  lemma EndTagSplit(pre: string, post: string, calls: seq<ToolCall>)
    requires !Contains(pre, EndTag)
    requires !Contains(pre + EndTag + post, AnswerTag)
    ensures SplitResponse(AssistantTurn(pre + EndTag + post, None, calls)) == Display(Strip(pre), Strip(post))
  {
    MarkersHeadUnique();
    FirstOccurrence(pre, EndTag, post);
    MarkerRoundTrip(pre, EndTag, post, calls);
  }

  /** Splitting at the chosen marker gives back the stripped text on either
      side of its first occurrence. */
  lemma MarkerRoundTrip(pre: string, marker: string, post: string, calls: seq<ToolCall>)
    requires HeadUnique(marker) && !Contains(pre, marker)
    requires AnswerMarker(pre + marker + post) == Some(marker)
    ensures SplitResponse(AssistantTurn(pre + marker + post, None, calls)) == Display(Strip(pre), Strip(post))
  {
    var content := pre + marker + post;
    FirstOccurrence(pre, marker, post);
    assert SplitOnce(content, marker) == (pre, post);
    assert SplitResponse(AssistantTurn(content, None, calls)) == MarkerSplit(content, marker);
  }

  /** Round trip: `thinking` and `answer`, each already stripped, written
      around `<answer>` with any whitespace padding, are split back into
      exactly the two texts. */
  lemma {:induction false} AnswerTagRoundTrip(a: string, thinking: string, b: string, c: string, answer: string, e: string,
                                              calls: seq<ToolCall>)
    requires AllSpace(a) && AllSpace(b) && AllSpace(c) && AllSpace(e)
    requires Trimmed(thinking) && Trimmed(answer)
    requires !Contains(a + thinking + b, AnswerTag)
    ensures SplitResponse(AssistantTurn(a + thinking + b + AnswerTag + c + answer + e, None, calls)) == Display(thinking, answer)
  {
    var pre, post := a + thinking + b, c + answer + e;
    assert a + thinking + b + AnswerTag + c + answer + e == pre + AnswerTag + post;
    AnswerTagSplit(pre, post, calls);
    StripPadded(a, thinking, b);
    StripPadded(c, answer, e);
  }

  /** The same round trip with the `<|end|>` marker, in a message without `<answer>`. */
  lemma {:induction false} EndTagRoundTrip(a: string, thinking: string, b: string, c: string, answer: string, e: string,
                                           calls: seq<ToolCall>)
    requires AllSpace(a) && AllSpace(b) && AllSpace(c) && AllSpace(e)
    requires Trimmed(thinking) && Trimmed(answer)
    requires !Contains(a + thinking + b, EndTag)
    requires !Contains(a + thinking + b + EndTag + c + answer + e, AnswerTag)
    ensures SplitResponse(AssistantTurn(a + thinking + b + EndTag + c + answer + e, None, calls)) == Display(thinking, answer)
  {
    var pre, post := a + thinking + b, c + answer + e;
    assert a + thinking + b + EndTag + c + answer + e == pre + EndTag + post;
    EndTagSplit(pre, post, calls);
    StripPadded(a, thinking, b);
    StripPadded(c, answer, e);
  }

  /** Both markers begin with a character they do not repeat. */
  lemma MarkersHeadUnique()
    ensures HeadUnique(AnswerTag) && HeadUnique(EndTag)
  {
  }
}

=== FILE: text.dfy ===
/**
 * The few Python string operations the client relies on: `str.strip()` with
 * no argument, substring search (`in`, `str.find`), `str.startswith`,
 * `str.endswith` and `str.split(sep)` / `str.split(sep, 1)`.
 */
module Text {
  import opened Wrappers

  /** Python's `str.isspace()` for one character: the characters that
      `str.strip()` removes when called without an argument. */
  predicate IsSpace(c: char) {
    || c == ' '
    || ('\t' <= c <= '\r')                 // \t \n \v \f \r
    || ('\U{1c}' <= c <= '\U{1f}')         // file, group, record and unit separators
    || c == '\U{85}' || c == '\U{a0}' || c == '\U{1680}'
    || ('\U{2000}' <= c <= '\U{200a}')
    || c == '\U{2028}' || c == '\U{2029}' || c == '\U{202f}' || c == '\U{205f}' || c == '\U{3000}'
  }

  predicate AllSpace(s: string) {
    forall k :: 0 <= k < |s| ==> IsSpace(s[k])
  }

  /** Every character of `s` in positions `lo` to `hi` (exclusive) is whitespace. */
  predicate SpaceBetween(s: string, lo: int, hi: int)
    requires 0 <= lo <= hi <= |s|
  {
    forall k :: lo <= k < hi ==> IsSpace(s[k])
  }

  /** True when `s` neither starts nor ends with whitespace. */
  predicate Trimmed(s: string) {
    s == [] || (!IsSpace(s[0]) && !IsSpace(s[|s| - 1]))
  }

  /** `s.lstrip()`: the longest suffix of `s` that does not start with whitespace. */
  function TrimStart(s: string): (r: string)
    ensures |r| <= |s| && r == s[|s| - |r|..]
    ensures SpaceBetween(s, 0, |s| - |r|)
    ensures r == [] || !IsSpace(r[0])
  {
    if |s| > 0 && IsSpace(s[0]) then
      var r := TrimStart(s[1..]);
      assert s[1..][|s[1..]| - |r|..] == s[|s| - |r|..];
      r
    else s
  }

  /** `s.rstrip()`: the longest prefix of `s` that does not end with whitespace. */
  function TrimEnd(s: string): (r: string)
    ensures |r| <= |s| && r == s[..|r|]
    ensures SpaceBetween(s, |r|, |s|)
    ensures r == [] || !IsSpace(r[|r| - 1])
  {
    if |s| > 0 && IsSpace(s[|s| - 1]) then
      TrimEnd(s[..|s| - 1])
    else s
  }

  /** Python's `s.strip()`: nothing is left exactly when `s` is all whitespace. */
  function Strip(s: string): (r: string)
    ensures |r| <= |s|
    ensures r == [] <==> AllSpace(s)
  {
    var t := TrimStart(s);
    var r := TrimEnd(t);
    assert t != [] ==> t[0] == s[|s| - |t|] && IsSpace(t[|t| - 1]) == IsSpace(s[|s| - 1]);
    r
  }

  /** Where `Strip(s)` starts in `s`. */
  function StripStart(s: string): nat {
    |s| - |TrimStart(s)|
  }

  /** Strip removes only whitespace, from both ends: `s` is whitespace, then
      the result, then whitespace. */
  lemma StripShape(s: string)
    ensures var i, r := StripStart(s), Strip(s);
      i + |r| <= |s| && s[i..i + |r|] == r && SpaceBetween(s, 0, i) && SpaceBetween(s, i + |r|, |s|)
  {
    StripSlice(s);
    StripTail(s);
  }

  lemma StripSlice(s: string)
    ensures StripStart(s) + |Strip(s)| <= |s| && s[StripStart(s)..StripStart(s) + |Strip(s)|] == Strip(s)
  {
    var t := TrimStart(s);
    var r := TrimEnd(t);
    var i := |s| - |t|;
    SliceOfSlice(s, i, |s|, 0, |r|);
  }

  lemma StripTail(s: string)
    ensures StripStart(s) + |Strip(s)| <= |s| && SpaceBetween(s, StripStart(s) + |Strip(s)|, |s|)
  {
    var t := TrimStart(s);
    SuffixSpace(s, |s| - |t|, t, |TrimEnd(t)|);
  }

  /** Whitespace at the end of a suffix is whitespace at the end of the whole. */
  lemma SuffixSpace(s: string, i: nat, t: string, n: nat)
    requires i <= |s| && t == s[i..] && n <= |t| && SpaceBetween(t, n, |t|)
    ensures SpaceBetween(s, i + n, |s|)
  {
    forall k | i + n <= k < |s| ensures IsSpace(s[k]) {
      assert s[k] == t[k - i];
    }
  }

  /** The stripped text neither starts nor ends with whitespace. */
  lemma StripTrimmed(s: string)
    ensures Trimmed(Strip(s))
  {
    var t := TrimStart(s);
    var r := TrimEnd(t);
    if r != [] {
      assert r[0] == t[0];
    }
  }

  /** The stripped text is determined by the text between the whitespace:
      padding a trimmed string with whitespace on both sides and stripping
      gives the string back. */
  lemma {:induction false} StripPadded(a: string, t: string, b: string)
    requires AllSpace(a) && AllSpace(b) && Trimmed(t)
    ensures Strip(a + t + b) == t
  {
    if t == [] {
      assert a + t + b == a + b;
      TrimStartPadded(a + b, []);
      assert a + b + [] == a + b;
    } else {
      assert a + t + b == a + (t + b);
      TrimStartPadded(a, t + b);
      TrimEndPadded(t, b);
    }
  }

  lemma {:induction false} TrimStartPadded(a: string, u: string)
    requires AllSpace(a) && (u == [] || !IsSpace(u[0]))
    ensures TrimStart(a + u) == u
  {
    if a != [] {
      assert (a + u)[1..] == a[1..] + u;
      TrimStartPadded(a[1..], u);
    } else {
      assert a + u == u;
    }
  }

  lemma {:induction false} TrimEndPadded(t: string, b: string)
    requires AllSpace(b) && (t == [] || !IsSpace(t[|t| - 1]))
    ensures TrimEnd(t + b) == t
  {
    if b != [] {
      assert (t + b)[..|t + b| - 1] == t + b[..|b| - 1];
      TrimEndPadded(t, b[..|b| - 1]);
    } else {
      assert t + b == t;
    }
  }

  /** A string without whitespace at either end is its own stripped form. */
  lemma StripOfTrimmed(t: string)
    requires Trimmed(t)
    ensures Strip(t) == t
  {
    assert TrimStart(t) == t;
  }

  /** Stripping twice is stripping once. */
  lemma StripIdempotent(s: string)
    ensures Strip(Strip(s)) == Strip(s)
  {
    StripTrimmed(s);
    var r := Strip(s);
    StripPadded([], r, []);
    assert [] + r + [] == r;
  }

  /** `pat` occurs in `s` at index `i`. */
  predicate OccursAt(s: string, pat: string, i: int) {
    0 <= i && i + |pat| <= |s| && s[i..i + |pat|] == pat
  }

  /** The first index at or after `from` where `pat` occurs in `s`. */
  function FindFrom(s: string, pat: string, from: nat): (r: Option<nat>)
    decreases |s| - from
    ensures r.Some? ==> from <= r.value && OccursAt(s, pat, r.value)
    ensures r.Some? ==> forall k :: from <= k < r.value ==> !OccursAt(s, pat, k)
    ensures r.None? ==> forall k :: from <= k ==> !OccursAt(s, pat, k)
  {
    if from + |pat| > |s| then None
    else if s[from..from + |pat|] == pat then Some(from)
    else FindFrom(s, pat, from + 1)
  }

  /** Python's `s.find(pat)`, with None for -1: the first occurrence. */
  function Find(s: string, pat: string): (r: Option<nat>)
    ensures r.Some? ==> OccursAt(s, pat, r.value) && forall k :: 0 <= k < r.value ==> !OccursAt(s, pat, k)
    ensures r.None? <==> forall k :: !OccursAt(s, pat, k)
  {
    FindFrom(s, pat, 0)
  }

  /** Python's `pat in s`. */
  predicate Contains(s: string, pat: string): (b: bool)
    ensures b <==> exists k :: OccursAt(s, pat, k)
  {
    Find(s, pat).Some?
  }

  /** Python's `s.startswith(prefix)`: `s` agrees with `prefix` on its first characters. */
  predicate StartsWith(s: string, prefix: string): (b: bool)
    ensures b <==> |prefix| <= |s| && forall k :: 0 <= k < |prefix| ==> s[k] == prefix[k]
  {
    |prefix| <= |s| && s[..|prefix|] == prefix
  }

  /** Python's `s.endswith(suffix)`: `s` agrees with `suffix` on its last characters. */
  predicate EndsWith(s: string, suffix: string): (b: bool)
    ensures b <==> |suffix| <= |s| && forall k :: 0 <= k < |suffix| ==> s[|s| - |suffix| + k] == suffix[k]
  {
    |suffix| <= |s| && s[|s| - |suffix|..] == suffix
  }

  /** Stripping cannot make `pat` occur in text where it did not occur. */
  lemma StripKeepsOut(s: string, pat: string)
    requires !Contains(s, pat)
    ensures !Contains(Strip(s), pat)
  {
    var i, r := StripStart(s), Strip(s);
    StripShape(s);
    NotInInfix(s, pat, i, r);
  }

  /** Concatenation is associative; stated once so that long logs can be
      regrouped without unfolding them. */
  lemma ConcatAssoc<T>(a: seq<T>, b: seq<T>, c: seq<T>)
    ensures a + (b + c) == a + b + c
  {
  }

  /** A slice of a slice is a slice of the whole. */
  lemma SliceOfSlice<T>(s: seq<T>, i: nat, j: nat, k: nat, l: nat)
    requires i <= j <= |s| && k <= l <= j - i
    ensures s[i..j][k..l] == s[i + k..i + l]
  {
    forall m | 0 <= m < l - k ensures s[i..j][k..l][m] == s[i + k..i + l][m] {
    }
  }

  /** A piece of a string that does not contain `pat` does not contain it either. */
  lemma NotInInfix(s: string, pat: string, i: nat, r: string)
    requires !Contains(s, pat)
    requires i + |r| <= |s| && s[i..i + |r|] == r
    ensures !Contains(r, pat)
  {
    forall k ensures !OccursAt(r, pat, k) {
      if 0 <= k && k + |pat| <= |r| {
        SliceOfSlice(s, i, i + |r|, k, k + |pat|);
        assert !OccursAt(s, pat, i + k);
      }
    }
  }

  /** The text before the first occurrence of `sep` does not contain it. */
  lemma BeforeFirst(s: string, sep: string)
    requires |sep| > 0 && Find(s, sep).Some?
    ensures !Contains(s[..Find(s, sep).value], sep)
  {
    var i := Find(s, sep).value;
    forall k ensures !OccursAt(s[..i], sep, k) {
      if 0 <= k && k + |sep| <= i {
        assert s[..i][k..k + |sep|] == s[k..k + |sep|];
        assert !OccursAt(s, sep, k);
      }
    }
  }

  /** Python's `s.split(sep)` for a non-empty separator: the pieces between
      the non-overlapping occurrences of `sep`, scanning from the left. */
  function Split(s: string, sep: string): (parts: seq<string>)
    requires |sep| > 0
    decreases |s|
    ensures |parts| >= 1
  {
    match Find(s, sep)
    case None => [s]
    case Some(i) => [s[..i]] + Split(s[i + |sep|..], sep)
  }

  /** No piece of `s.split(sep)` contains the separator. */
  lemma {:induction false} SplitPiecesFree(s: string, sep: string)
    requires |sep| > 0
    ensures forall k :: 0 <= k < |Split(s, sep)| ==> !Contains(Split(s, sep)[k], sep)
    decreases |s|
  {
    match Find(s, sep)
    case None =>
    case Some(i) =>
      BeforeFirst(s, sep);
      SplitPiecesFree(s[i + |sep|..], sep);
  }

  /** `sep.join(parts)`. */
  function Join(parts: seq<string>, sep: string): string
    requires |parts| >= 1
  {
    if |parts| == 1 then parts[0] else parts[0] + sep + Join(parts[1..], sep)
  }

  /** Splitting and joining again with the same separator gives the input back. */
  lemma {:induction false} JoinSplit(s: string, sep: string)
    requires |sep| > 0
    ensures Join(Split(s, sep), sep) == s
    decreases |s|
  {
    match Find(s, sep)
    case None =>
    case Some(i) =>
      var rest := s[i + |sep|..];
      var tail := Split(rest, sep);
      assert Split(s, sep) == [s[..i]] + tail;
      assert ([s[..i]] + tail)[1..] == tail;
      JoinSplit(rest, sep);
      assert s == s[..i] + s[i..i + |sep|] + rest;
  }

  /** With exactly two pieces, the input is the first piece, the separator
      and the second piece, so it always ends with the second piece. */
  lemma TwoParts(s: string, sep: string)
    requires |sep| > 0 && |Split(s, sep)| == 2
    ensures s == Split(s, sep)[0] + sep + Split(s, sep)[1]
    ensures EndsWith(s, Split(s, sep)[1])
  {
    JoinSplit(s, sep);
    var parts := Split(s, sep);
    assert Join(parts, sep) == parts[0] + sep + Join(parts[1..], sep);
    assert parts[1..] == [parts[1]];
  }

  /** `s.split(sep)` has more than one piece exactly when `sep in s`, and the
      first piece is the text before the first occurrence. */
  lemma SplitFirst(s: string, sep: string)
    requires |sep| > 0
    ensures |Split(s, sep)| > 1 <==> Contains(s, sep)
    ensures Contains(s, sep) ==> Split(s, sep)[0] == s[..Find(s, sep).value]
  {
  }

  /** `s.split(sep, 1)` when `sep in s`: the text before and after the first occurrence. */
  function SplitOnce(s: string, sep: string): (r: (string, string))
    requires |sep| > 0 && Contains(s, sep)
    ensures s == r.0 + sep + r.1
    ensures !Contains(r.0, sep)
  {
    var i := Find(s, sep).value;
    assert s == s[..i] + s[i..i + |sep|] + s[i + |sep|..];
    BeforeFirst(s, sep);
    (s[..i], s[i + |sep|..])
  }

  /** A string without the first character of `pat` does not contain `pat`. */
  lemma NoHeadNoOccurrence(s: string, pat: string)
    requires |pat| > 0 && forall k :: 0 <= k < |s| ==> s[k] != pat[0]
    ensures !Contains(s, pat)
  {
    forall k ensures !OccursAt(s, pat, k) {
      if 0 <= k && k + |pat| <= |s| {
        assert s[k..k + |pat|][0] == s[k];
      }
    }
  }

  /** The first character of `pat` occurs nowhere else in it. */
  predicate HeadUnique(pat: string) {
    |pat| > 0 && forall k :: 0 < k < |pat| ==> pat[k] != pat[0]
  }

  /** In `t + pat + u` with no `pat` in `t`, the first occurrence of `pat` is
      right after `t`: an earlier one would either lie inside `t` or overlap
      its end, and overlapping would place the head of `pat` at a later
      position of `pat`. */
  lemma FirstOccurrence(t: string, pat: string, u: string)
    requires HeadUnique(pat) && !Contains(t, pat)
    ensures Find(t + pat + u, pat) == Some(|t|)
    ensures SplitOnce(t + pat + u, pat) == (t, u)
  {
    var s := t + pat + u;
    assert OccursAt(s, pat, |t|) by {
      assert s[|t|..|t| + |pat|] == pat;
    }
    var i := Find(s, pat).value;
    if i < |t| {
      if i + |pat| <= |t| {
        assert s[i..i + |pat|] == t[i..i + |pat|];
        assert OccursAt(t, pat, i);
        assert false;
      } else {
        NoOverlap(t, pat, u, i);
        assert false;
      }
    }
    assert s[..|t|] == t && s[|t| + |pat|..] == u;
  }

  /** No occurrence of `pat` starts inside `t` and runs into the `pat` after it. */
  lemma NoOverlap(t: string, pat: string, u: string, i: nat)
    requires HeadUnique(pat) && i < |t| < i + |pat|
    ensures !OccursAt(t + pat + u, pat, i)
  {
    var s := t + pat + u;
    var k := |t| - i;
    assert s[|t|] == pat[0];
    assert pat[k] != pat[0];
  }
}

=== FILE: tools.dfy ===
/**
 * The tool registry of the chat client: the tool categories, the six tool
 * providers as constant data, and `ToolManager`, which turns a map of
 * category flags into an ordered list of tool specifications (sent to the
 * remote model) and a name-to-tool dispatch table.
 *
 * Provider discovery by subclass enumeration is replaced by an explicit,
 * ordered list of provider descriptors; a descriptor records whether the
 * provider's constructor succeeds (it yields a `Tool`) or raises
 * `ValueError` (it yields the error message).
 */
module Tools {
  import opened Wrappers

  /** `ToolType`: the category that decides whether a provider is enabled. */
  datatype ToolType = Basic | FileAccess | WebAccess

  /** The enum member's value, the key used in the category flags. */
  function TypeValue(t: ToolType): string {
    match t
    case Basic => "basic"
    case FileAccess => "file_access"
    case WebAccess => "web_access"
  }

  /** Each category is found again from its value, and no two categories
      share a value. */
  lemma TypeValueRoundTrip(t: ToolType, u: ToolType)
    ensures ParseToolType(TypeValue(t)) == Some(t)
    ensures TypeValue(t) == TypeValue(u) ==> t == u
  {
  }

  /** `ToolType(s)`: the member whose value is `s`, or None where Python raises `ValueError`. */
  function ParseToolType(s: string): (r: Option<ToolType>)
    ensures r.Some? ==> TypeValue(r.value) == s
    ensures forall t :: TypeValue(t) == s ==> r == Some(t)
  {
    if s == "basic" then Some(Basic)
    else if s == "file_access" then Some(FileAccess)
    else if s == "web_access" then Some(WebAccess)
    else None
  }

  /** A truthy flag whose key names no category. */
  datatype InvalidCategory = InvalidCategory

  /** `{ToolType(t) for t in tool_types if tool_types[t]}`: the enabled
      categories, or the `ValueError` raised for a truthy flag that names no
      category. Flags are booleans, as the command line supplies them. */
  function EnabledCategories(flags: map<string, bool>): (r: Result<set<ToolType>, InvalidCategory>)
    ensures r.Ok? <==> forall k :: k in flags && flags[k] ==> ParseToolType(k).Some?
    ensures r.Ok? ==> forall t :: t in r.value <==> TypeValue(t) in flags && flags[TypeValue(t)]
  {
    if exists k :: k in flags && flags[k] && ParseToolType(k).None? then Err(InvalidCategory)
    else Ok(set t | t in {Basic, FileAccess, WebAccess} && TypeValue(t) in flags && flags[TypeValue(t)])
  }

  /** One parameter of a tool's JSON-Schema parameter object. */
  datatype Param = Param(name: string, jsonType: string, description: string, required: bool, default: Option<int>)

  /** The `function` part of a tool specification. */
  datatype ToolSpec = ToolSpec(name: string, description: string, params: seq<Param>)

  /** A constructed tool instance: its class, its specification and its category.
      What `run` does is not part of the registry; see `RunTool`. */
  datatype Tool = Tool(className: string, spec: ToolSpec, category: ToolType)

  /** A provider class as the registry meets it: calling its constructor
      either yields an instance or raises `ValueError` with a message. */
  datatype ProviderClass = ProviderClass(className: string, init: Result<Tool, string>)

  const TimeTool := Tool("Time", ToolSpec("get_time", "Get the current local time.", []), Basic)

  const WebFetch := Tool("WebFetchTool",
    ToolSpec("web_fetch", "Get the content of a webpage.",
      [Param("url", "string", "The URL of the webpage to fetch.", true, None)]),
    WebAccess)

  const WebSearch := Tool("WebSearchTool",
    ToolSpec("web_search", "Performs a web search.",
      [Param("query", "string", "The search query.", true, None),
       Param("num_results", "integer", "The number of search results to return.", false, Some(3))]),
    WebAccess)

  const ListDir := Tool("ListDir",
    ToolSpec("list_dir", "Lists the contents of a directory.",
      [Param("path", "string", "The path to the directory.", true, None)]),
    FileAccess)

  const ReadFile := Tool("ReadFile",
    ToolSpec("read_file", "Reads the contents of a file.",
      [Param("path", "string", "The path to the file.", true, None)]),
    FileAccess)

  const WriteFile := Tool("WriteFile",
    ToolSpec("write_file", "Writes content to a file.",
      [Param("path", "string", "The path to the file.", true, None),
       Param("content", "string", "The content to write.", true, None)]),
    FileAccess)

  /** The provider classes in definition order, the order subclass discovery
      yields them. `WebSearchTool()` raises unless `LANGSEARCH_API_KEY` is set
      to a non-empty value. */
  function Discovered(langsearchKey: Option<string>): (ps: seq<ProviderClass>)
    ensures |ps| == 6
    ensures forall i :: 0 <= i < |ps| && ps[i].init.Ok? ==> ps[i].init.value.className == ps[i].className
    ensures forall i :: 0 <= i < |ps| && ps[i].init.Err? ==>
      ps[i].className == "WebSearchTool" && (langsearchKey.None? || langsearchKey.value == "")
    ensures ps[2].className == "WebSearchTool" &&
      (ps[2].init.Err? <==> langsearchKey.None? || langsearchKey.value == "")
  {
    [ ProviderClass("Time", Ok(TimeTool)),
      ProviderClass("WebFetchTool", Ok(WebFetch)),
      ProviderClass("WebSearchTool",
        if langsearchKey.Some? && langsearchKey.value != "" then Ok(WebSearch)
        else Err("LANGSEARCH_API_KEY not set")),
      ProviderClass("ListDir", Ok(ListDir)),
      ProviderClass("ReadFile", Ok(ReadFile)),
      ProviderClass("WriteFile", Ok(WriteFile)) ]
  }

  /** What one provider adds to the registry: its instance, when the
      constructor succeeded and the instance's category is enabled. */
  function Contribution(p: ProviderClass, enabled: set<ToolType>): (c: seq<Tool>)
    ensures |c| <= 1
    ensures forall t :: t in c <==> p.init == Ok(t) && t.category in enabled
  {
    match p.init
    case Ok(t) => if t.category in enabled then [t] else []
    case Err(_) => []
  }

  /** The tools the registry keeps, in discovery order: every instance that
      was constructed and whose category is enabled. */
  function Registered(providers: seq<ProviderClass>, enabled: set<ToolType>): (r: seq<Tool>)
    ensures |r| <= |providers|
    ensures forall t :: t in r ==> t.category in enabled
  {
    if providers == [] then []
    else Registered(providers[..|providers| - 1], enabled) + Contribution(providers[|providers| - 1], enabled)
  }

  /** Every registered tool is the instance built by one of the providers. */
  lemma {:induction false} RegisteredFrom(providers: seq<ProviderClass>, enabled: set<ToolType>, t: Tool)
    requires t in Registered(providers, enabled)
    ensures exists i :: 0 <= i < |providers| && providers[i].init == Ok(t)
  {
    var init := providers[..|providers| - 1];
    if t in Registered(init, enabled) {
      RegisteredFrom(init, enabled, t);
      var i :| 0 <= i < |init| && init[i].init == Ok(t);
      assert providers[i] == init[i];
    }
  }

  /** The specification list: one entry per registered tool, in order. */
  function SpecsOf(ts: seq<Tool>): (specs: seq<ToolSpec>)
    ensures |specs| == |ts|
    ensures forall i :: 0 <= i < |ts| ==> specs[i] == ts[i].spec
  {
    seq(|ts|, i requires 0 <= i < |ts| => ts[i].spec)
  }

  /** The dispatch table: each tool stored under its specification's name, a
      later tool overwriting an earlier one of the same name. */
  function Table(ts: seq<Tool>): map<string, Tool>
  {
    if ts == [] then map[]
    else Table(ts[..|ts| - 1])[ts[|ts| - 1].spec.name := ts[|ts| - 1]]
  }

  /** The names of the given tools' specifications. */
  function Names(ts: seq<Tool>): set<string> {
    set t | t in ts :: t.spec.name
  }

  predicate DistinctNames(ts: seq<Tool>) {
    forall i, j :: 0 <= i < j < |ts| ==> ts[i].spec.name != ts[j].spec.name
  }

  /** The table's keys are exactly the names of the listed tools, and each key
      maps to a tool of that name drawn from the list. */
  lemma {:induction false} TableKeys(ts: seq<Tool>)
    ensures Table(ts).Keys == Names(ts)
    ensures forall k :: k in Table(ts) ==> Table(ts)[k].spec.name == k && Table(ts)[k] in ts
  {
    if ts != [] {
      var init := ts[..|ts| - 1];
      TableKeys(init);
      assert ts == init + [ts[|ts| - 1]];
      assert Names(ts) == Names(init) + {ts[|ts| - 1].spec.name};
    }
  }

  /** The table holds, under each name, the last listed tool of that name. */
  lemma {:induction false} TableLastWins(ts: seq<Tool>, i: nat)
    requires i < |ts|
    requires forall j :: i < j < |ts| ==> ts[j].spec.name != ts[i].spec.name
    ensures ts[i].spec.name in Table(ts) && Table(ts)[ts[i].spec.name] == ts[i]
  {
    if i < |ts| - 1 {
      TableLastWins(ts[..|ts| - 1], i);
    }
  }

  /** With distinct names the table has one entry per listed tool. */
  lemma {:induction false} TableSize(ts: seq<Tool>)
    requires DistinctNames(ts)
    ensures |Table(ts)| == |ts|
  {
    if ts != [] {
      var init := ts[..|ts| - 1];
      TableSize(init);
      TableKeys(init);
      assert ts[|ts| - 1].spec.name !in Names(init);
    }
  }

  /** Two tools sharing a name: the specification list keeps both while the
      table keeps only the later one. */
  lemma DuplicateNameShadows(a: Tool, b: Tool)
    requires a.spec.name == b.spec.name && a != b
    ensures SpecsOf([a, b]) == [a.spec, b.spec]
    ensures Table([a, b]) == map[b.spec.name := b]
    ensures |Table([a, b])| < |SpecsOf([a, b])|
  {
    assert [a, b][..1] == [a];
    assert [a][..0] == [];
    assert Table([a]) == map[a.spec.name := a];
    assert Table([a, b]) == Table([a])[b.spec.name := b];
  }

  /** The registry's contribution splits over a concatenation of provider
      lists: processing one provider never affects those after it. */
  lemma {:induction false} RegisteredAppend(a: seq<ProviderClass>, b: seq<ProviderClass>, enabled: set<ToolType>)
    ensures Registered(a + b, enabled) == Registered(a, enabled) + Registered(b, enabled)
    decreases |b|
  {
    if b == [] {
      assert a + b == a;
    } else {
      var b' := b[..|b| - 1];
      assert (a + b)[..|a + b| - 1] == a + b';
      assert (a + b)[|a + b| - 1] == b[|b| - 1];
      RegisteredAppend(a, b', enabled);
    }
  }

  /** Appending one provider appends its contribution. */
  lemma RegisteredSnoc(a: seq<ProviderClass>, p: ProviderClass, enabled: set<ToolType>)
    ensures Registered(a + [p], enabled) == Registered(a, enabled) + Contribution(p, enabled)
  {
    assert (a + [p])[..|a|] == a;
  }

  /** A provider whose constructor raises, or whose category is disabled,
      leaves no trace: the registry built with it equals the registry built
      without it, and the providers after it are still registered. */
  lemma SkippedProvider(a: seq<ProviderClass>, p: ProviderClass, b: seq<ProviderClass>, enabled: set<ToolType>)
    requires p.init.Err? || p.init.value.category !in enabled
    ensures Registered(a + [p] + b, enabled) == Registered(a + b, enabled)
  {
    RegisteredAppend(a + [p], b, enabled);
    RegisteredSnoc(a, p, enabled);
    assert Registered(a + [p], enabled) == Registered(a, enabled);
    RegisteredAppend(a, b, enabled);
  }

  /** Providers whose instances carry pairwise distinct names yield a
      registry with distinct names, whatever is enabled. */
  lemma RegisteredDistinct(ps: seq<ProviderClass>, enabled: set<ToolType>)
    requires forall pi, pj :: 0 <= pi < pj < |ps| && ps[pi].init.Ok? && ps[pj].init.Ok? ==>
      ps[pi].init.value.spec.name != ps[pj].init.value.spec.name
    ensures DistinctNames(Registered(ps, enabled))
  {
    var r := Registered(ps, enabled);
    forall i, j | 0 <= i < j < |r| ensures r[i].spec.name != r[j].spec.name {
      RegisteredIndices(ps, enabled, i, j);
    }
  }

  /** The six built-in tools have distinct names, so the specification list
      and the dispatch table of any registry built from them have the same size. */
  lemma DiscoveredNamesDistinct(key: Option<string>, enabled: set<ToolType>)
    ensures DistinctNames(Registered(Discovered(key), enabled))
    ensures |Table(Registered(Discovered(key), enabled))| == |SpecsOf(Registered(Discovered(key), enabled))|
  {
    var ps := Discovered(key);
    var names := ["get_time", "web_fetch", "web_search", "list_dir", "read_file", "write_file"];
    assert forall i :: 0 <= i < |ps| && ps[i].init.Ok? ==> ps[i].init.value.spec.name == names[i];
    assert forall pi, pj :: 0 <= pi < pj < |names| ==> names[pi] != names[pj];
    RegisteredDistinct(ps, enabled);
    TableSize(Registered(ps, enabled));
  }

  /** The search tool is registered exactly when `LANGSEARCH_API_KEY` is set
      to a non-empty value and web access is enabled: without the key its
      constructor raises, and neither the table nor the specification list
      has an entry named `web_search`. */
  lemma SearchToolNeedsKey(key: Option<string>, enabled: set<ToolType>)
    ensures var r := Registered(Discovered(key), enabled);
      ("web_search" in Table(r) <==> key.Some? && key.value != "" && WebAccess in enabled)
    ensures var r := Registered(Discovered(key), enabled);
      (forall s :: s in SpecsOf(r) ==> s.name != "web_search") <==> key.None? || key.value == "" || WebAccess !in enabled
  {
    var r := Registered(Discovered(key), enabled);
    if key.Some? && key.value != "" && WebAccess in enabled {
      SearchRegistered(key, enabled);
      NamePresent(r, WebSearch);
    } else {
      NoSearchRegistered(key, enabled);
      NameAbsent(r, "web_search");
    }
  }

  /** With a key and web access, the search tool's instance is registered. */
  lemma SearchRegistered(key: Option<string>, enabled: set<ToolType>)
    requires key.Some? && key.value != "" && WebAccess in enabled
    ensures WebSearch in Registered(Discovered(key), enabled)
  {
    var ps := Discovered(key);
    var a, p, b := ps[..2], ps[2], ps[3..];
    assert p.init == Ok(WebSearch);
    assert ps == a + [p] + b;
    RegisteredAppend(a + [p], b, enabled);
    RegisteredSnoc(a, p, enabled);
  }

  /** Without a key or without web access, no registered tool is named
      `web_search`. */
  lemma NoSearchRegistered(key: Option<string>, enabled: set<ToolType>)
    requires key.None? || key.value == "" || WebAccess !in enabled
    ensures forall t :: t in Registered(Discovered(key), enabled) ==> t.spec.name != "web_search"
  {
    var ps := Discovered(key);
    forall t | t in Registered(ps, enabled) ensures t.spec.name != "web_search" {
      RegisteredFrom(ps, enabled, t);
    }
  }

  /** A listed tool's name is a key of the table and its specification is in
      the list. */
  lemma NamePresent(ts: seq<Tool>, t: Tool)
    requires t in ts
    ensures t.spec.name in Table(ts) && t.spec in SpecsOf(ts)
  {
    TableKeys(ts);
    var i :| 0 <= i < |ts| && ts[i] == t;
    assert SpecsOf(ts)[i] == t.spec;
  }

  /** A name no listed tool carries is neither a key of the table nor the
      name of a specification in the list. */
  lemma NameAbsent(ts: seq<Tool>, name: string)
    requires forall t :: t in ts ==> t.spec.name != name
    ensures name !in Table(ts) && forall s :: s in SpecsOf(ts) ==> s.name != name
  {
    TableKeys(ts);
    forall s | s in SpecsOf(ts) ensures s.name != name {
      var i :| 0 <= i < |SpecsOf(ts)| && SpecsOf(ts)[i] == s;
      assert ts[i] in ts;
    }
  }

  /** Two positions of the registered list come from two positions of the
      provider list, in the same order. */
  lemma {:induction false} RegisteredIndices(ps: seq<ProviderClass>, enabled: set<ToolType>, i: nat, j: nat)
    requires i < j < |Registered(ps, enabled)|
    ensures exists pi, pj ::
      (0 <= pi < pj < |ps| && ps[pi].init == Ok(Registered(ps, enabled)[i]) && ps[pj].init == Ok(Registered(ps, enabled)[j]))
  {
    var init := ps[..|ps| - 1];
    var r := Registered(ps, enabled);
    var ri := Registered(init, enabled);
    if j < |ri| {
      RegisteredIndices(init, enabled, i, j);
      var pi, pj :| 0 <= pi < pj < |init| && init[pi].init == Ok(ri[i]) && init[pj].init == Ok(ri[j]);
      assert ps[pi] == init[pi] && ps[pj] == init[pj];
    } else {
      assert r[j] == ps[|ps| - 1].init.value;
      assert r[i] == ri[i];
      RegisteredFrom(init, enabled, ri[i]);
      var pi :| 0 <= pi < |init| && init[pi].init == Ok(r[i]);
      assert ps[pi] == init[pi];
    }
  }

  /** With every flag false nothing is registered. */
  lemma AllDisabledEmpty(flags: map<string, bool>, providers: seq<ProviderClass>)
    requires forall k :: k in flags ==> !flags[k]
    ensures EnabledCategories(flags) == Ok({})
    ensures Registered(providers, EnabledCategories(flags).value) == []
  {
    var e := EnabledCategories(flags).value;
    assert forall t :: t !in e;
    assert e == {};
  }

  /** With only the basic flag set, only the basic category is enabled. */
  lemma OnlyBasicEnabled()
    ensures EnabledCategories(map["basic" := true, "file_access" := false, "web_access" := false]) == Ok({Basic})
  {
    var flags := map["basic" := true, "file_access" := false, "web_access" := false];
    var e := EnabledCategories(flags).value;
    forall t ensures t in e <==> t == Basic {
      assert TypeValue(t) in flags;
    }
    assert e == {Basic};
  }

  /** Providers that all fail or all belong to disabled categories register nothing. */
  lemma NoneEnabled(ps: seq<ProviderClass>, enabled: set<ToolType>)
    requires forall i :: 0 <= i < |ps| ==> ps[i].init.Err? || ps[i].init.value.category !in enabled
    ensures Registered(ps, enabled) == []
  {
  }

  /** With only the basic category enabled, the registry is exactly the clock tool. */
  lemma OnlyBasicIsTime(key: Option<string>)
    ensures Registered(Discovered(key), {Basic}) == [TimeTool]
    ensures SpecsOf([TimeTool]) == [TimeTool.spec] && Table([TimeTool]) == map["get_time" := TimeTool]
  {
    var ps := Discovered(key);
    var p0 := ProviderClass("Time", Ok(TimeTool));
    var rest := ps[1..];
    assert ps[0] == p0;
    assert ps == [p0] + rest;
    RegisteredAppend([p0], rest, {Basic});
    assert [p0][..0] == [];
    NoneEnabled(rest, {Basic});
    assert [TimeTool][..0] == [];
  }

  /**
   * `ToolManager`: the registry. `tools` maps a name to the tool that
   * answers it; `specs` is the list of specifications sent with each request.
   */
  class ToolManager {
    var tools: map<string, Tool>
    var specs: seq<ToolSpec>

    /** The link between the two fields that every registry keeps: each key
        of `tools` names the tool stored under it, and that tool's
        specification is in `specs`. */
    ghost predicate Valid()
      reads this
    {
      forall k :: k in tools ==> tools[k].spec.name == k && tools[k].spec in specs
    }

    /** `ToolManager(tool_types)`. A truthy flag that names no category makes
        Python raise before any provider is tried, which `EnabledCategories`
        reports; such flags are excluded here. */
    constructor (flags: map<string, bool>, providers: seq<ProviderClass>)
      requires EnabledCategories(flags).Ok?
      ensures specs == SpecsOf(Registered(providers, EnabledCategories(flags).value))
      ensures tools == Table(Registered(providers, EnabledCategories(flags).value))
      ensures Valid()
    {
      var enabled := EnabledCategories(flags).value;
      var table, list := Register(providers, enabled);
      assert Holds(providers, enabled, table, list);
      ghost var registered := Registered(providers, enabled);
      ValidTable(registered);
      tools := table;
      specs := list;
      new;
    }

    /** `run_tool(name, **args)`: runs the tool registered under `name` through
        `run`, which stands for the tool's own `run` method; an unknown name is
        refused with `ValueError` and runs nothing. The registry is not changed. */
    method RunTool<A>(name: string, args: A, run: (Tool, A) -> string) returns (r: Result<string, string>)
      ensures name in tools ==> r == Ok(run(tools[name], args))
      ensures name !in tools ==> r == Err("Tool '" + name + "' not found.")
      ensures Valid() && r.Ok? ==> tools[name].spec.name == name && tools[name].spec in specs
    {
      if name in tools {
        r := Ok(run(tools[name], args));
      } else {
        r := Err("Tool '" + name + "' not found.");
      }
    }
  }

  /** The constructor's loop over the providers: each one is constructed;
      one that fails is skipped with a diagnostic, one whose category is
      enabled is entered in the table under its name and its specification
      appended to the list. */
  method Register(providers: seq<ProviderClass>, enabled: set<ToolType>) returns (table: map<string, Tool>, list: seq<ToolSpec>)
    ensures Holds(providers, enabled, table, list)
  {
    table, list := map[], [];
    var i := 0;
    while i < |providers|
      invariant 0 <= i <= |providers|
      invariant Holds(providers[..i], enabled, table, list)
    {
      match providers[i].init {
        case Err(_) =>
          // The diagnostic "Cannot initialize ..." is printed; the provider is skipped.
          RegisterSkip(providers, i, enabled, table, list);
        case Ok(instance) =>
          if instance.category in enabled {
            RegisterAdd(providers, i, enabled, table, list, instance);
            table := table[instance.spec.name := instance];
            list := list + [instance.spec];
          } else {
            RegisterSkip(providers, i, enabled, table, list);
          }
      }
      i := i + 1;
    }
    assert providers[..i] == providers;
  }

  /** `table` and `list` are the dispatch table and the specification list
      of the tools that `providers` register. */
  ghost predicate Holds(providers: seq<ProviderClass>, enabled: set<ToolType>, table: map<string, Tool>, list: seq<ToolSpec>) {
    table == Table(Registered(providers, enabled)) && list == SpecsOf(Registered(providers, enabled))
  }

  /** A provider that contributes nothing leaves the table and the list as they were. */
  lemma RegisterSkip(ps: seq<ProviderClass>, i: nat, enabled: set<ToolType>, table: map<string, Tool>, list: seq<ToolSpec>)
    requires i < |ps| && Contribution(ps[i], enabled) == [] && Holds(ps[..i], enabled, table, list)
    ensures Holds(ps[..i + 1], enabled, table, list)
  {
    RegisteredStep(ps, i, enabled);
  }

  /** A provider that contributes tool `t` enters it in the table under its
      name and appends its specification to the list. */
  lemma RegisterAdd(ps: seq<ProviderClass>, i: nat, enabled: set<ToolType>, table: map<string, Tool>, list: seq<ToolSpec>,
                    t: Tool)
    requires i < |ps| && ps[i].init == Ok(t) && t.category in enabled && Holds(ps[..i], enabled, table, list)
    ensures Holds(ps[..i + 1], enabled, table[t.spec.name := t], list + [t.spec])
  {
    assert Contribution(ps[i], enabled) == [t];
    RegisteredStep(ps, i, enabled);
  }

  /** Processing provider `i` appends its contribution to the registry, its
      specification to the list and its entry to the table. */
  lemma RegisteredStep(ps: seq<ProviderClass>, i: nat, enabled: set<ToolType>)
    requires i < |ps|
    ensures Registered(ps[..i + 1], enabled) == Registered(ps[..i], enabled) + Contribution(ps[i], enabled)
    ensures SpecsOf(Registered(ps[..i + 1], enabled)) ==
      SpecsOf(Registered(ps[..i], enabled)) + (if Contribution(ps[i], enabled) == [] then [] else [ps[i].init.value.spec])
    ensures Table(Registered(ps[..i + 1], enabled)) ==
      (if Contribution(ps[i], enabled) == [] then Table(Registered(ps[..i], enabled))
       else Table(Registered(ps[..i], enabled))[ps[i].init.value.spec.name := ps[i].init.value])
  {
    assert ps[..i + 1][..i] == ps[..i];
    var r := Registered(ps[..i], enabled);
    var c := Contribution(ps[i], enabled);
    if c != [] {
      assert (r + c)[..|r + c| - 1] == r;
    } else {
      assert r + c == r;
    }
  }

  /** A table and specification list built from the same tools are linked as `Valid` requires. */
  lemma ValidTable(ts: seq<Tool>)
    ensures forall k :: k in Table(ts) ==> Table(ts)[k].spec.name == k && Table(ts)[k].spec in SpecsOf(ts)
  {
    TableKeys(ts);
    forall k | k in Table(ts) ensures Table(ts)[k].spec in SpecsOf(ts) {
      var i :| 0 <= i < |ts| && ts[i] == Table(ts)[k];
      assert SpecsOf(ts)[i] == ts[i].spec;
    }
  }
}

=== FILE: wrappers.dfy ===
/** Optional values and results with an error, as the model's other modules use them. */
module Wrappers {

  datatype Option<+T> = None | Some(value: T)

  datatype Result<+R, +E> = Ok(value: R) | Err(error: E)
}
